=== FILE: README.md ===
# amele, modelled in Dafny

amele converts the EF6 `[Index]` attributes written on entity classes into the EF Core
fluent `HasIndex` calls that replace them. Each `.cs` file is read line by line:

- a scan finds the first class declaration;
- an accumulator then folds consecutive `[Index("name")]` / `[Index("name", Order = n)]`
  lines into a pending list and closes that list at the next single-line auto-property
  `public T Name { get; set; }`;
- all collected attributes are grouped by index name, and each group is ordered by
  `Order` into the index's column list;
- one `builder.Entity<E>().HasIndex(e => ...).HasName("...")` statement is written per
  index, between a fixed header and footer.

The model follows that structure:

| file | module | what it holds |
|---|---|---|
| `model.dfy` | `Model` | annotations, linked attributes, properties, indexes, entities, failures and skips |
| `text.dfy` | `Text` | character classes, greedy runs, `Trim`, decimal digits |
| `patterns.dfy` | `Patterns` | the three regular expressions as recognizers; the member-line classification |
| `reader.dfy` | `Reader` | `LineReader`, the forward-only reader (a class with a position) |
| `scanner.dfy` | `Scanner` | `getClassName` and `tryGetNextIndexProperty` as loops on the reader, proved against `FirstClass` and `Scan` |
| `grouping.dfy` | `Grouping` | `SelectMany` / `GroupBy` / `OrderBy` / `Select` as functions |
| `extractor.dfy` | `Extractor` | `tryGetEntity` as a method, proved against `Extract` |
| `emitter.dfy` | `Emitter` | the field expression `e.F` / `new { e.F1, e.F2 }` and a reader for it |
| `converter.dfy` | `Converter` | the run over all files, the first failure, the written lines |
| `*_lemmas.dfy` | | the properties, proved about the functions above |

The imperative parts keep their shape. The reader is a class whose `pos` field the
methods advance. `GetClassName`, `TryGetNextIndexProperty`, `CollectProperties`,
`CollectEntities` and `Write` are loops, and `TryGetEntity` and `Run` are methods that
call them. Each of these methods has an `ensures` that equates its result with a
function of its input: the remaining lines, the files, the entities or the `Input`.
`GetClassName`, `TryGetNextIndexProperty` and `CollectProperties` also state the
reader's new position. Those functions carry the lemmas.

`Abort` and the `Environment.Exit` inside it become an explicit `Err` result. So does
the uncaught `OverflowException` that `int.Parse` raises for an `Order` above
2147483647. Any of these ends the whole run; in `Gather`, the first failing file wins.

The `class` keyword at the start of a trimmed line never starts a match, because
`classRegex` needs whitespace before `class` and the reader has already trimmed the
line (`ClassAndPropertyLemmas.MatchClassSkips`). So `class Foo` alone declares no class
(`ClassAndPropertyLemmas.BareClassLineDoesNotMatch`), and a file whose only class line
looks like that is skipped. A later ` class Bar` on the same line still does match. Members on the class line itself are never scanned
either, because the member scan starts on the next line
(`ExtractorLemmas.ExtractAfterClass`).

## Model

| member | source | states |
|---|---|---|
| Text.Trim | SourceReader.cs:20 | the trimmed line is the stretch of the raw line between a run of leading and a run of trailing whitespace, and it neither starts nor ends with whitespace |
| Text.TrimIdempotent | SourceReader.cs:20 | trimming an already trimmed line changes nothing |
| Text.DecimalValue | Program.cs:208-210 | the value `int.Parse` reads from the `order` digits; `DecimalRoundTrip` shows that it inverts the decimal spelling |
| Text.DecimalRoundTrip | Program.cs:208-210 | the decimal digits written for `n` parse back as `n` |
| Patterns.MatchClass | Program.cs:14 | a class name found by the unanchored class pattern is a non-empty run of word characters |
| Patterns.OrderClause | Program.cs:24-31 | the optional `, Order = n` group consumes a non-empty part of the line |
| Patterns.MatchIndexAttr | Program.cs:18-33 | a matched annotation's index name is a non-empty run of word characters |
| Patterns.MatchAutoProperty | Program.cs:34-46 | a matched auto-property has a non-empty type and a word for its name |
| Patterns.ClassifyMember | Program.cs:202-216 | the annotation pattern is tried before the property pattern; names found are words |
| PatternLemmas.OrderClauseOf | Program.cs:24-31 | `, Order = <digits>` reads as the value of the digits, followed by whatever comes after them |
| PatternLemmas.AttrLineNoOrder | Program.cs:208-210 | `[Index("name")]` reads as that name with no order, not order zero |
| PatternLemmas.AttrLineWithOrder | Program.cs:208-210 | `[Index("name", Order = n)]` reads as that name and exactly `n` |
| PatternLemmas.AttrLineRoundTrip | Program.cs:18-33 | the member scan classifies the written annotation as exactly that annotation |
| ClassAndPropertyLemmas.PropertyLineRoundTrip | Program.cs:34-46 | `public T Name { get; set; }` is classified as an auto-property with type `T` and name `Name`, not as an annotation |
| ClassAndPropertyLemmas.MatchClassSkips | Program.cs:14 | characters that are not whitespace cannot start a class match; the leftmost match lies beyond them |
| ClassAndPropertyLemmas.ClassLineRoundTrip | Program.cs:14 | `public class Name` declares the class `Name` |
| ClassAndPropertyLemmas.BareClassLineDoesNotMatch | Program.cs:14 | a trimmed line `class Name` declares no class |
| Reader.LineReader.constructor | SourceReader.cs:12-16 | a new reader is positioned before the first line |
| Reader.LineReader.TryReadLine | SourceReader.cs:18-23 | returns the next line trimmed and advances by one, or reports the end and does not move |
| Scanner.ClassOf | Program.cs:246-251 | the class pattern applied to a line as the reader returns it, trimmed |
| Scanner.FirstClass | Program.cs:244-255 | the class scan as a function of the lines: the first class name and the lines after it; `FirstClassFinds` and `FirstClassNone` state what it finds |
| Scanner.FirstClassFinds | Program.cs:244-255 | the class scan stops at the first line that declares a class, names that class and leaves exactly the lines after it |
| Scanner.FirstClassNone | Program.cs:244-255 | the class scan finds nothing exactly when no line declares a class |
| Scanner.GetClassName | Program.cs:244-255 | returns the first declared class name and leaves the reader just after its line; otherwise `None` with the reader at the end |
| Scanner.KindOf | Program.cs:200-216 | one raw line, trimmed as the reader returns it, classified as the member scan sees it |
| Scanner.Kinds | Program.cs:200-216 | each remaining line is classified as the member scan sees it; property names are words |
| Scanner.Scan | Program.cs:197-241 | a found property leaves strictly fewer lines; the only failures are a dangling annotation and an order overflow |
| Scanner.NextProperty | Program.cs:195-242 | one call of the accumulator, begun with nothing pending; `ScanFound`, `ScanExhausted`, `ScanMissingProperty` and `ScanOverflow` state its outcomes |
| Model.Attach | Program.cs:229-232 | defines the linked attribute: the annotation's index name and order plus the closing property's name; its meaning is carried by `ScannerLemmas.ScanFound` and `ExtractorLemmas.CollectWellFormed` |
| Model.AttachAll | Program.cs:229-232 | defines the linking of every pending annotation, in order, to the closing property; `ScannerLemmas.ScanFound` states what it yields for a property |
| Scanner.LinkAttributes | Program.cs:229-232 | every pending attribute now refers to the closing property; names and orders are unchanged |
| Scanner.TryGetNextIndexProperty | Program.cs:195-242 | returns the property, `None` at a clean end, or the failure exactly as `NextProperty` on the remaining lines, and leaves the reader where `NextProperty` stops |
| ScannerLemmas.ScanFound | Program.cs:197-233 | a returned property is closed by the auto-property line just consumed; its attributes are every annotation line read since the call began, in order, linked to it; it is never empty; auto-property lines met with nothing pending were skipped |
| ScannerLemmas.ScanExhausted | Program.cs:236-241 | the normal end (no property) happens exactly when nothing is pending and no annotation line remains |
| ScannerLemmas.ScanMissingProperty | Program.cs:236-239 | with orders in range, the scan fails for a missing property exactly when an annotation is pending or remains and no auto-property line can close it |
| ScannerLemmas.ScanOverflow | Program.cs:208-210 | an order failure means some annotation line declares an order above 2147483647 |
| Grouping.Flatten | Program.cs:174 | the attributes of all properties laid end to end (`SelectMany`); `GroupIndexesConserve` shows none is lost |
| Grouping.IndexNames | Program.cs:175 | the `GroupBy` keys; `IndexNamesExact` and `IndexNamesInEncounterOrder` state that each name comes once, in order of first appearance |
| Grouping.Group | Program.cs:175 | the attributes with one index name, in encounter order; `GroupNonEmpty` and `RegroupPermutation` state its properties |
| Grouping.OrderLe | Program.cs:179 | the order `OrderBy` uses on `int?`: no order comes before any order, and orders ascend; `SortByOrderStable` sorts by it |
| Grouping.FirstPos | Program.cs:175 | the position of the first attribute with a given index name; no earlier attribute has that name |
| Grouping.Insert | Program.cs:179 | inserting keeps every attribute (multiset) |
| Grouping.SortByOrder | Program.cs:179 | the sort is a permutation of its input |
| Grouping.FieldNames | Program.cs:179 | the owning property's name of each attribute, in order (`Select(a => a.Property.Name)`) |
| Grouping.BuildIndexes | Program.cs:176-181 | one index per key, named by it, whose columns come from that key's group sorted by `Order`; `GroupIndexesColumns` states it |
| Grouping.GroupIndexes | Program.cs:174-181 | the whole LINQ chain; `GroupIndexesNames`, `GroupIndexesColumns` and `GroupIndexesConserve` state what it yields |
| GroupingLemmas.IndexNamesExact | Program.cs:175 | the group keys are pairwise distinct, every attribute's index name is a key, and every key occurs |
| GroupingLemmas.IndexNamesInEncounterOrder | Program.cs:175 | groups come in the order in which their names are first met |
| GroupingLemmas.InsertWithOrder | Program.cs:179 | insertion keeps the relative order of attributes with equal `Order` |
| GroupingLemmas.InsertSorted | Program.cs:179 | insertion into a sorted list keeps it sorted |
| GroupingLemmas.SortByOrderStable | Program.cs:179 | the result is sorted, no order before any order, ascending, and ties keep encounter order: a stable sort |
| GroupingLemmas.RegroupPermutation | Program.cs:174-181 | concatenating the groups in key order is a permutation of all attributes |
| GroupingLemmas.AllFieldNamesRegroup | Program.cs:176-181 | all columns of all indexes are the property names of the groups laid end to end |
| GroupingLemmas.GroupNonEmpty | Program.cs:175 | the group of a name that occurs is not empty |
| GroupingLemmas.GroupIndexesNames | Program.cs:174-181 | one index per distinct name, names pairwise distinct, every attribute's name indexed, in order of first encounter |
| GroupingLemmas.GroupIndexesColumns | Program.cs:176-180 | every index has columns, and they are the property names of a stable sort by `Order` of exactly that name's attributes |
| GroupingLemmas.GroupIndexesConserve | Program.cs:174-181 | grouping loses and invents no attribute: all columns together are the property names of a permutation of all attributes, as many as there are attributes |
| Extractor.Collect | Program.cs:162-166 | collecting properties fails only on a dangling annotation or an order overflow |
| Extractor.Extract | Program.cs:150-193 | extracting one file fails only on a dangling annotation or an order overflow |
| Extractor.ExtractFrom | Program.cs:162-192 | an extracted entity carries the class name and at least one index |
| Extractor.CollectProperties | Program.cs:162-166 | the loop returns what `Collect` gives on the lines it started from, keeps the reader valid, and on success leaves it at the end of the file |
| Extractor.TryGetEntity | Program.cs:150-193 | the method returns exactly `Extract` of the file's lines |
| ExtractorLemmas.FoundSplit | Program.cs:197-233 | one call consumes the lines up to the closing auto-property; the property's attributes are exactly the annotations among them |
| ExtractorLemmas.CollectWellFormed | Program.cs:224-232 | every collected property is linked to itself, has attributes and is named after an auto-property line of the file |
| ExtractorLemmas.CollectKeepsAnnotations | Program.cs:162-174 | the collected attributes, unlinked, are exactly the annotation lines of the file, in order |
| ExtractorLemmas.CollectNothing | Program.cs:168-172 | no property is collected exactly when the file has no annotation line |
| ExtractorLemmas.CollectOverflow | Program.cs:208-210 | collecting fails on an order exactly when some annotation line's order exceeds 2147483647 |
| ExtractorLemmas.CollectMissingProperty | Program.cs:236-239 | with orders in range, collecting fails for a missing property exactly when some annotation line has no auto-property line after it |
| ExtractorLemmas.ExtractAfterClass | Program.cs:153-163 | extraction depends only on the lines after the first class line; nothing above it reaches any property |
| ExtractorLemmas.ExtractFailure | Program.cs:163-166 | the two failures of one file, each characterised in both directions |
| ExtractorLemmas.ExtractNoProperties | Program.cs:168-172 | a file is skipped for having no indexed properties exactly when it has no annotation line |
| ExtractorLemmas.NoIndexesUnreachable | Program.cs:187-191 | once properties were collected, the no-indexes skip cannot happen |
| ExtractorLemmas.ExtractNeverNoIndexes | Program.cs:187-191 | no file is ever skipped for having no indexes |
| ExtractorLemmas.ExtractedIndexes | Program.cs:174-186 | the entity is named after the class; index names are distinct and are exactly the annotated names; every index has columns |
| ExtractorLemmas.ColumnsNamedByProperties | Program.cs:174-181 | every column of the grouped indexes is the name of one of the collected properties |
| ExtractorLemmas.ExtractedColumns | Program.cs:174-181 | there are as many columns as annotation lines, and each is the name of an auto-property line of the file |
| Emitter.Join | Program.cs:122 | `String.Join(", ", ...)`; `ReadAccessListOf` reads it back |
| Emitter.Access | Program.cs:120-122 | one column as `e.` followed by its name; `ReadAccessOf` reads it back |
| Emitter.Accesses | Program.cs:122 | defines the list of `e.` accesses for the columns; `EmitterLemmas.ReadAccessListOf` and `EmitterLemmas.FieldExprRoundTrip` show the columns can be read back from it |
| Emitter.FieldExpr | Program.cs:119-122 | `e.F` for one column and `new { e.F1, e.F2 }` for several; `FieldExprRoundTrip` reads it back as exactly the columns |
| Emitter.ReadAccess | Program.cs:120-122 | reading `e.F` gives back a word and what follows it |
| Emitter.ReadFieldExpr | Program.cs:119-122 | a field expression reads back as a non-empty list of words |
| EmitterLemmas.ReadAccessListOf | Program.cs:121-122 | `e.F1, e.F2, ...` joined with `", "` reads back as the columns |
| EmitterLemmas.AccessIsNotComposite | Program.cs:119-122 | a single-column expression is never taken for the `new { ... }` form |
| EmitterLemmas.FieldExprRoundTrip | Program.cs:119-122 | `e.F` for one column and `new { e.F1, e.F2 }` for several read back as exactly the columns |
| Converter.Statement | Program.cs:123-126 | one index written as a block of four lines; `ReadStatementOf` reads it back |
| Converter.EntityStatements | Program.cs:117-127 | the blocks of one entity's indexes, in order; `ReadEntityStatements` reads them back |
| Converter.Statements | Program.cs:115-128 | the blocks of every entity, in order; `StatementsRoundTrip` reads them back |
| Converter.Files | Program.cs:78-90 | the files to read: those of the folder, or the single file given |
| Converter.Outcomes | Program.cs:93-101 | defines the per-file extraction results, in file order; `ConverterLemmas.GatherFailure` and `ConverterLemmas.ConvertOutput` state what the run makes of them |
| Converter.Gather | Program.cs:92-101 | the entities in file order, or the first failure; `GatherFailure`, `GatherEntities` and `GatherNothing` state it |
| Converter.Finish | Program.cs:92-130 | the outcome of all files decides the run: a failure, no entities, or the written lines; `FinishFailure` and `FinishOutput` state it |
| Converter.Convert | Program.cs:68-133 | the whole run; `ConvertNoFiles` and `ConvertOutput` state it |
| Converter.CollectEntities | Program.cs:92-101 | the loop returns the extracted entities, in file order, or the first failure |
| Converter.Write | Program.cs:112-130 | writes the header, one block per index of every entity in order, then the footer |
| Converter.Run | Program.cs:68-133 | the run returns exactly `Convert` of its input |
| Converter.GatherStopsAtFailure | Program.cs:93-101 | once a file has failed, later files do not change the outcome |
| ConverterLemmas.GatherFailure | Program.cs:93-101 | the run fails exactly when some file fails, and then with the failure of the first such file |
| ConverterLemmas.GatherEntities | Program.cs:92-101 | on success, an entity is kept exactly when some file extracted it |
| ConverterLemmas.GatherNothing | Program.cs:103-107 | no entity is kept exactly when every file was skipped |
| ConverterLemmas.ConvertNoFiles | Program.cs:79-85 | the run fails for want of files exactly when the input is an empty folder |
| ConverterLemmas.FinishFailure | Program.cs:103-107 | with no failed file, the run fails exactly when every file was skipped, and then for want of entities; otherwise the first failure decides |
| ConverterLemmas.ReadStatementOf | Program.cs:123-126 | one written block reads back as its entity name and index |
| ConverterLemmas.ReadEntityStatements | Program.cs:117-127 | an entity's blocks read back as its indexes, in order |
| ConverterLemmas.StatementsRoundTrip | Program.cs:115-128 | all written blocks read back as one (entity, index) pair per index of every entity, in order |
| ConverterLemmas.ExtractFromValid | Program.cs:174-186 | every extracted column and index name can be written and read back |
| ConverterLemmas.ExtractedValid | Program.cs:150-193 | every entity extracted from a file has an index, and its columns can be written and read back |
| ConverterLemmas.FinishOutput | Program.cs:112-130 | a successful run writes the header, blocks that read back as the found entities' indexes (at least one), then the footer |
| ConverterLemmas.ConvertOutput | Program.cs:68-133 | end to end: the output of a successful run is header, one readable block per index of every extracted entity in file order (at least one), footer |

## Left out

- Command-line parsing, the usage error for a missing `--input`, the version banner and
  every console progress message: these are I/O with no effect on what is converted.
- Directory enumeration and file opening. A folder is given as the list of its `*.cs`
  files' lines, and a single file as its lines. A file that cannot be opened is not
  modelled.
- `Dispose` on the reader, and its `CurrentLine` counter, which nothing reads.
- Where the output goes (a file or the console) and closing the writer. The output is
  modelled as the list of lines written. The header and footer constants are split at
  their embedded line breaks, and the line terminators themselves are not modelled.
- The process exit codes and the text of the abort messages. Each abort is an `Err`
  naming its cause.
- .NET's Unicode character classes. `\s`, `\w`, `\d` and `String.Trim` are modelled over
  ASCII: space, tab, CR, LF, VT and FF; letters, digits and `_`; `0`-`9`.
- The regular-expression engine. Each pattern is a hand-written recognizer that follows
  its greedy runs and its optional group. For `classRegex` the recognizer takes the
  leftmost match.
- The object reference `attr.Property = prop` is modelled by the owning property's
  name. Grouping reads nothing else from it.
- PatternLemmas.AttrLineRoundTrip: proved for the canonical spelling (single spaces in
  `, Order = n`), not for every spacing the pattern accepts.
- ClassAndPropertyLemmas.PropertyLineRoundTrip: proved for the canonical spelling
  `public T Name { get; set; }` only.
- Patterns.ClassifyMember: its contract only bounds the names it returns. That it agrees
  with .NET's matching is assumed in the modelling, not proved.
- ConverterLemmas.ConvertOutput: the blocks are read back with the model's own reader of
  the four-line statement shape, not with a C# parser.

=== FILE: converter.dfy ===
/**
 * The whole run: every source file is turned into an entity or skipped, the
 * first failure ends the run, and the entities' indexes are written out as
 * model-building statements between a fixed header and footer. The output
 * is modelled as the lines written.
 */
module Converter {
  import opened Wrappers
  import opened Model
  import opened Extractor
  import opened Emitter

  /** The lines written before the statements. */
  const Header: seq<string> := [
    "",
    "// <auto-generated>",
    "// Do not use this file directly but merge the code into your own modelbuilding code",
    "",
    "public class HedeContext: DbContext",
    "{",
    "    public void OnModelBuilding(ModelBuilder builder)",
    "    {",
    ""
  ]

  /** The lines written after the statements. */
  const Footer: seq<string> := ["", "    }", "}"]

  const EntityOpen: string := "        builder.Entity<"
  const EntityClose: string := ">()"
  const HasIndexOpen: string := "            .HasIndex(e => "
  const HasIndexClose: string := ")"
  const HasNameOpen: string := "            .HasName(\""
  const HasNameClose: string := "\");"

  /** The statement block written for the index `ix` of the entity
      `entityName`. */
  function Statement(entityName: string, ix: Index): (r: seq<string>)
    ensures |r| == 4
  {
    [ "",
      EntityOpen + entityName + EntityClose,
      HasIndexOpen + FieldExpr(ix.fieldNames) + HasIndexClose,
      HasNameOpen + ix.name + HasNameClose ]
  }

  /** The blocks for the indexes `ixs` of one entity, in order. */
  function EntityStatements(entityName: string, ixs: seq<Index>): seq<string> {
    if ixs == [] then []
    else EntityStatements(entityName, ixs[..|ixs| - 1]) + Statement(entityName, ixs[|ixs| - 1])
  }

  /** The blocks for every index of every entity of `es`, in order. */
  function Statements(es: seq<Entity>): seq<string> {
    if es == [] then []
    else Statements(es[..|es| - 1]) + EntityStatements(es[|es| - 1].name, es[|es| - 1].indexes)
  }

  /** The input: a folder's source files, or one source file; each file is
      given as its lines. */
  datatype Input = Folder(files: seq<seq<string>>) | SourceFile(lines: seq<string>)

  function Files(input: Input): seq<seq<string>> {
    if input.Folder? then input.files else [input.lines]
  }

  /** What each file yields, in order. */
  function Outcomes(files: seq<seq<string>>): seq<Result<Extraction>> {
    seq(|files|, i requires 0 <= i < |files| => Extract(files[i]))
  }

  /** The entities of the outcomes `outs`, in order, or the first failure
      among them. */
  function Gather(outs: seq<Result<Extraction>>): Result<seq<Entity>> {
    if outs == [] then Ok([])
    else
      var init := Gather(outs[..|outs| - 1]);
      var last := outs[|outs| - 1];
      if init.Err? then init
      else if last.Err? then Err(last.error)
      else if last.value.Extracted? then Ok(init.value + [last.value.entity])
      else init
  }

  /** What the run writes, or why it stops. */
  function Convert(input: Input): Result<seq<string>> {
    if input.Folder? && input.files == [] then Err(NoFilesFound)
    else Finish(Outcomes(Files(input)))
  }

  /** The run once every file has been read: the first failure, or the
      failure for want of entities, or the lines written. */
  function Finish(outs: seq<Result<Extraction>>): Result<seq<string>> {
    var es := Gather(outs);
    if es.Err? then Err(es.error)
    else if es.value == [] then Err(NoEntitiesFound)
    else Ok(Header + Statements(es.value) + Footer)
  }

  /** Once the outcomes so far hold a failure, the later ones do not matter. */
  lemma {:induction false} GatherStopsAtFailure(outs: seq<Result<Extraction>>, k: nat)
    requires k <= |outs| && Gather(outs[..k]).Err?
    ensures Gather(outs) == Gather(outs[..k])
    decreases |outs| - k
  {
    if k < |outs| {
      assert outs[..k + 1][..k] == outs[..k];
      GatherStopsAtFailure(outs, k + 1);
    } else {
      assert outs[..k] == outs;
    }
  }

  /** One more outcome: a failure ends the gathering with that failure, an
      extracted entity is kept, a skip changes nothing. */
  lemma GatherStep(outs: seq<Result<Extraction>>, i: nat, entities: seq<Entity>)
    requires i < |outs| && Gather(outs[..i]) == Ok(entities)
    ensures outs[i].Err? ==> Gather(outs) == Err(outs[i].error)
    ensures outs[i].Ok? ==>
      Gather(outs[..i + 1]) == Ok(if outs[i].value.Extracted? then entities + [outs[i].value.entity] else entities)
  {
    assert outs[..i + 1][..i] == outs[..i];
    if outs[i].Err? {
      GatherStopsAtFailure(outs, i + 1);
    }
  }

  /** The loop over the files: each is turned into an entity or skipped,
      and the first failure ends it. */
  method CollectEntities(files: seq<seq<string>>) returns (r: Result<seq<Entity>>)
    ensures r == Gather(Outcomes(files))
  {
    ghost var outs := Outcomes(files);
    var entities: seq<Entity> := [];
    for i := 0 to |files|
      invariant Gather(outs[..i]) == Ok(entities)
    {
      var outcome := TryGetEntity(files[i]);
      GatherStep(outs, i, entities);
      if outcome.Err? {
        return Err(outcome.error);
      }
      if outcome.value.Extracted? {
        entities := entities + [outcome.value.entity];
      }
    }
    assert outs[..|files|] == outs;
    return Ok(entities);
  }

  lemma StatementsStep(es: seq<Entity>, i: nat)
    requires i < |es|
    ensures Statements(es[..i + 1]) == Statements(es[..i]) + EntityStatements(es[i].name, es[i].indexes)
  {
    assert es[..i + 1][..i] == es[..i];
  }

  lemma EntityStatementsStep(name: string, ixs: seq<Index>, j: nat)
    requires j < |ixs|
    ensures EntityStatements(name, ixs[..j + 1]) == EntityStatements(name, ixs[..j]) + Statement(name, ixs[j])
  {
    assert ixs[..j + 1][..j] == ixs[..j];
  }

  /** Concatenation regroups freely. */
  lemma Associative<T>(a: seq<T>, b: seq<T>, c: seq<T>)
    ensures (a + b) + c == a + (b + c)
  {
  }

  /** The writing loops: the header, one block per index of each entity,
      and the footer. */
  method Write(entities: seq<Entity>) returns (out: seq<string>)
    ensures out == Header + Statements(entities) + Footer
  {
    out := Header;
    for i := 0 to |entities|
      invariant out == Header + Statements(entities[..i])
    {
      var e := entities[i];
      ghost var before := out;
      for j := 0 to |e.indexes|
        invariant out == before + EntityStatements(e.name, e.indexes[..j])
      {
        EntityStatementsStep(e.name, e.indexes, j);
        Associative(before, EntityStatements(e.name, e.indexes[..j]), Statement(e.name, e.indexes[j]));
        out := out + Statement(e.name, e.indexes[j]);
      }
      assert e.indexes[..|e.indexes|] == e.indexes;
      StatementsStep(entities, i);
      Associative(Header, Statements(entities[..i]), EntityStatements(e.name, e.indexes));
    }
    assert entities[..|entities|] == entities;
    out := out + Footer;
  }

  /** The run: an empty folder stops it at once; otherwise the files are
      read, and the statements written once some entity was found. */
  method Run(input: Input) returns (r: Result<seq<string>>)
    ensures r == Convert(input)
  {
    if input.Folder? && |input.files| == 0 {
      return Err(NoFilesFound);
    }
    var files := if input.Folder? then input.files else [input.lines];
    var entities := CollectEntities(files);
    if entities.Err? {
      return Err(entities.error);
    }
    if |entities.value| == 0 {
      return Err(NoEntitiesFound);
    }
    var out := Write(entities.value);
    return Ok(out);
  }
}

=== FILE: converter_lemmas.dfy ===
/**
 * What the run promises: it stops at the first file that fails, and only
 * then; it fails for want of entities exactly when every file was skipped;
 * and on success the statements between header and footer read back as one
 * (entity, index) pair per index of every entity found, in order.
 */
module ConverterLemmas {
  import opened Wrappers
  import opened Text
  import opened Model
  import opened Patterns
  import opened Scanner
  import opened Grouping
  import opened Extractor
  import opened ExtractorLemmas
  import opened Emitter
  import opened EmitterLemmas
  import opened Converter

  /** File `i` is the first whose outcome is a failure. */
  predicate FirstFailure(outs: seq<Result<Extraction>>, i: int) {
    0 <= i < |outs| && outs[i].Err? && forall j :: 0 <= j < i ==> outs[j].Ok?
  }

  /** The run fails exactly when some file fails, and then with the failure
      of the first such file. */
  lemma {:induction false} GatherFailure(outs: seq<Result<Extraction>>)
    ensures Gather(outs).Err? <==> exists i :: FirstFailure(outs, i)
    ensures forall i :: FirstFailure(outs, i) ==> Gather(outs) == Err(outs[i].error)
  {
    if outs != [] {
      var init := outs[..|outs| - 1];
      GatherFailure(init);
      assert forall j :: 0 <= j < |init| ==> init[j] == outs[j];
      if Gather(init).Err? {
        var i :| FirstFailure(init, i);
        assert FirstFailure(outs, i);
      } else if outs[|outs| - 1].Err? {
        assert forall j :: 0 <= j < |init| ==> outs[j].Ok? by {
          forall j | 0 <= j < |init| ensures outs[j].Ok? {
            if outs[j].Err? {
              var k := FirstOf(init, j);
            }
          }
        }
        assert FirstFailure(outs, |outs| - 1);
      } else {
        forall i | 0 <= i < |outs| ensures !FirstFailure(outs, i) {
          if i < |init| {
            assert FirstFailure(outs, i) ==> FirstFailure(init, i);
          }
        }
      }
    }
  }

  /** Below any failing position there is a first failing one. */
  lemma {:induction false} FirstOf(outs: seq<Result<Extraction>>, j: nat) returns (k: nat)
    requires j < |outs| && outs[j].Err?
    ensures k <= j && FirstFailure(outs, k)
  {
    if forall m :: 0 <= m < j ==> outs[m].Ok? {
      k := j;
    } else {
      var m :| 0 <= m < j && outs[m].Err?;
      k := FirstOf(outs, m);
    }
  }

  /** On success the run keeps exactly the extracted entities. */
  lemma {:induction false} GatherEntities(outs: seq<Result<Extraction>>)
    requires Gather(outs).Ok?
    ensures forall e :: e in Gather(outs).value <==>
      exists i :: 0 <= i < |outs| && outs[i] == Ok(Extracted(e))
  {
    if outs != [] {
      var init := outs[..|outs| - 1];
      GatherEntities(init);
      assert forall j :: 0 <= j < |init| ==> init[j] == outs[j];
      forall e | exists i :: 0 <= i < |outs| && outs[i] == Ok(Extracted(e))
        ensures e in Gather(outs).value
      {
        var i :| 0 <= i < |outs| && outs[i] == Ok(Extracted(e));
        if i < |init| {
          assert init[i] == Ok(Extracted(e));
        }
      }
    }
  }

  /** The run fails for want of entities exactly when every file was
      skipped. */
  lemma {:induction false} GatherNothing(outs: seq<Result<Extraction>>)
    ensures Gather(outs) == Ok([]) <==> forall i :: 0 <= i < |outs| ==> outs[i].Ok? && outs[i].value.Skipped?
  {
    if outs != [] {
      var init := outs[..|outs| - 1];
      GatherNothing(init);
      assert forall j :: 0 <= j < |init| ==> init[j] == outs[j];
      if Gather(init).Err? {
        GatherFailure(init);
        var i :| FirstFailure(init, i);
        assert outs[i].Err?;
      }
    }
  }

  /** An empty folder is the only input that stops the run before any file
      is read. */
  lemma ConvertNoFiles(input: Input)
    ensures Convert(input) == Err(NoFilesFound) <==> input == Folder([])
  {
    var outs := Outcomes(Files(input));
    if Gather(outs).Err? {
      GatherFailure(outs);
      var i :| FirstFailure(outs, i);
      assert outs[i] == Extract(Files(input)[i]);
    }
  }

  /** Once the files are read, the run fails exactly when some file fails,
      with the failure of the first one; and when no file fails, it fails
      for want of entities exactly when every file was skipped. */
  lemma FinishFailure(outs: seq<Result<Extraction>>)
    ensures Finish(outs).Err? && (forall i :: 0 <= i < |outs| ==> outs[i].Ok?)
        ==> Finish(outs) == Err(NoEntitiesFound)
    ensures forall i :: FirstFailure(outs, i) ==> Finish(outs) == Err(outs[i].error)
    ensures (forall i :: 0 <= i < |outs| ==> outs[i].Ok?) ==>
      (Finish(outs) == Err(NoEntitiesFound) <==> forall i :: 0 <= i < |outs| ==> outs[i].value.Skipped?)
  {
    GatherFailure(outs);
    GatherNothing(outs);
  }

  // ---------------------------------------------------------------------
  // Reading the statements back

  /** The text of `s` between `open` and `close`, if `s` is so framed. */
  function Between(s: string, open: string, close: string): (r: Option<string>)
    ensures r.Some? ==> s == open + r.value + close
  {
    var body := StripPrefix(s, open);
    if body.Some? && |body.value| >= |close| && body.value[|body.value| - |close|..] == close then
      assert body.value == body.value[..|body.value| - |close|] + close;
      Some(body.value[..|body.value| - |close|])
    else None
  }

  lemma BetweenOf(open: string, x: string, close: string)
    ensures Between(open + x + close, open, close) == Some(x)
  {
    assert open + x + close == open + (x + close);
    StripFront(open, x + close);
    assert (x + close)[|x + close| - |close|..] == close;
    assert (x + close)[..|x + close| - |close|] == x;
  }

  /** Reads one four-line statement block: the entity and the index it
      declares. */
  function ReadStatement(block: seq<string>): Option<(string, Index)> {
    if |block| != 4 || block[0] != "" then None
    else
      var entity := Between(block[1], EntityOpen, EntityClose);
      var expr := Between(block[2], HasIndexOpen, HasIndexClose);
      var name := Between(block[3], HasNameOpen, HasNameClose);
      if entity.None? || expr.None? || name.None? then None
      else
        var columns := ReadFieldExpr(expr.value);
        if columns.None? then None
        else Some((entity.value, Index(name.value, columns.value)))
  }

  /** Reads consecutive four-line blocks with `read`. */
  function ReadBlocks<T>(lines: seq<string>, read: seq<string> -> Option<T>): Option<seq<T>>
    decreases |lines|
  {
    if lines == [] then Some([])
    else if |lines| < 4 then None
    else
      var first := read(lines[..4]);
      var rest := ReadBlocks(lines[4..], read);
      if first.None? || rest.None? then None else Some([first.value] + rest.value)
  }

  /** Reads consecutive statement blocks. */
  function ReadStatements(lines: seq<string>): Option<seq<(string, Index)>> {
    ReadBlocks(lines, ReadStatement)
  }

  /** Every (entity, index) pair of `es`, in the order written. */
  function Pairs(es: seq<Entity>): seq<(string, Index)> {
    if es == [] then []
    else Pairs(es[..|es| - 1]) + EntityPairs(es[|es| - 1].name, es[|es| - 1].indexes)
  }

  function EntityPairs(name: string, ixs: seq<Index>): seq<(string, Index)> {
    if ixs == [] then [] else EntityPairs(name, ixs[..|ixs| - 1]) + [(name, ixs[|ixs| - 1])]
  }

  /** An index the field-expression notation carries without loss. */
  predicate ValidIndex(ix: Index) {
    ix.fieldNames != [] && forall j :: 0 <= j < |ix.fieldNames| ==> IsWord(ix.fieldNames[j])
  }

  predicate ValidEntity(e: Entity) {
    forall i :: 0 <= i < |e.indexes| ==> ValidIndex(e.indexes[i])
  }

  lemma ReadStatementOf(name: string, ix: Index)
    requires ValidIndex(ix)
    ensures ReadStatement(Statement(name, ix)) == Some((name, ix))
  {
    BetweenOf(EntityOpen, name, EntityClose);
    BetweenOf(HasIndexOpen, FieldExpr(ix.fieldNames), HasIndexClose);
    BetweenOf(HasNameOpen, ix.name, HasNameClose);
    FieldExprRoundTrip(ix.fieldNames);
  }

  lemma {:induction false} ReadBlocksAppend<T>(lines: seq<string>, block: seq<string>, read: seq<string> -> Option<T>)
    requires ReadBlocks(lines, read).Some? && |block| == 4 && read(block).Some?
    ensures ReadBlocks(lines + block, read) == Some(ReadBlocks(lines, read).value + [read(block).value])
    decreases |lines|
  {
    if lines == [] {
      assert lines + block == block;
      assert block[..4] == block && block[4..] == [];
      assert [read(block).value] + [] == [] + [read(block).value];
    } else {
      ReadBlocksAppend(lines[4..], block, read);
      assert (lines + block)[..4] == lines[..4];
      assert (lines + block)[4..] == lines[4..] + block;
      var first := read(lines[..4]).value;
      var rest := ReadBlocks(lines[4..], read).value;
      var b := read(block).value;
      assert [first] + (rest + [b]) == ([first] + rest) + [b];
    }
  }

  lemma {:induction false} ReadEntityStatements(name: string, ixs: seq<Index>, before: seq<string>)
    requires forall i :: 0 <= i < |ixs| ==> ValidIndex(ixs[i])
    requires ReadStatements(before).Some?
    ensures ReadStatements(before + EntityStatements(name, ixs))
      == Some(ReadStatements(before).value + EntityPairs(name, ixs))
  {
    if ixs == [] {
      assert before + [] == before;
      assert ReadStatements(before).value + [] == ReadStatements(before).value;
    } else {
      var init := ixs[..|ixs| - 1];
      var last := ixs[|ixs| - 1];
      ReadEntityStatements(name, init, before);
      ReadStatementOf(name, last);
      ReadBlocksAppend(before + EntityStatements(name, init), Statement(name, last), ReadStatement);
      Associative(before, EntityStatements(name, init), Statement(name, last));
      var r := ReadStatements(before).value;
      Associative(r, EntityPairs(name, init), [(name, last)]);
    }
  }

  /** The statements written for the entities `es` read back as their
      (entity, index) pairs, in order. */
  lemma {:induction false} StatementsRoundTrip(es: seq<Entity>)
    requires forall k :: 0 <= k < |es| ==> ValidEntity(es[k])
    ensures ReadStatements(Statements(es)) == Some(Pairs(es))
  {
    if es != [] {
      var init := es[..|es| - 1];
      var last := es[|es| - 1];
      StatementsRoundTrip(init);
      ReadEntityStatements(last.name, last.indexes, Statements(init));
    }
  }

  lemma {:induction false} AllFieldNamesMember(ixs: seq<Index>, i: nat, j: nat)
    requires i < |ixs| && j < |ixs[i].fieldNames|
    ensures ixs[i].fieldNames[j] in AllFieldNames(ixs)
  {
    if i > 0 {
      AllFieldNamesMember(ixs[1..], i - 1, j);
    }
  }

  /** An entity extracted from classified lines whose auto-property names
      are words carries indexes the field-expression notation can hold. */
  lemma ExtractFromValid(className: string, ks: seq<LineKind>)
    requires forall j :: 0 <= j < |ks| && ks[j].AutoPropLine? ==> IsWord(ks[j].name)
    requires ExtractFrom(className, ks).Ok? && ExtractFrom(className, ks).value.Extracted?
    ensures ValidEntity(ExtractFrom(className, ks).value.entity)
  {
    var e := ExtractFrom(className, ks).value.entity;
    ExtractedIndexes(className, ks);
    ExtractedColumns(className, ks);
    forall i, j | 0 <= i < |e.indexes| && 0 <= j < |e.indexes[i].fieldNames|
      ensures IsWord(e.indexes[i].fieldNames[j])
    {
      AllFieldNamesMember(e.indexes, i, j);
    }
  }

  /** Every entity extracted from a file has at least one index, and each
      index has columns the field-expression notation can hold. */
  lemma ExtractedValid(ls: seq<string>)
    requires Extract(ls).Ok? && Extract(ls).value.Extracted?
    ensures ValidEntity(Extract(ls).value.entity) && Extract(ls).value.entity.indexes != []
  {
    var cls := FirstClass(ls).value;
    ExtractFromValid(cls.0, Kinds(cls.1));
  }

  lemma {:induction false} PairsNonEmpty(es: seq<Entity>)
    requires es != [] && es[|es| - 1].indexes != []
    ensures Pairs(es) != []
  {
  }

  /** When every extracted entity is valid and has an index, a successful
      run writes the header, then statement blocks that read back as the
      (entity, index) pairs of the entities found, in order, at least one of
      them, then the footer. */
  lemma FinishOutput(outs: seq<Result<Extraction>>)
    requires forall i :: 0 <= i < |outs| && outs[i].Ok? && outs[i].value.Extracted? ==>
      ValidEntity(outs[i].value.entity) && outs[i].value.entity.indexes != []
    ensures Finish(outs).Ok? ==>
      var out := Finish(outs).value;
      var es := Gather(outs).value;
      && |Header| + |Footer| <= |out|
      && out[..|Header|] == Header
      && out[|out| - |Footer|..] == Footer
      && ReadStatements(out[|Header|..|out| - |Footer|]) == Some(Pairs(es))
      && Pairs(es) != []
  {
    if Finish(outs).Ok? {
      var es := Gather(outs).value;
      GatherEntities(outs);
      forall k | 0 <= k < |es| ensures ValidEntity(es[k]) && es[k].indexes != [] {
        assert es[k] in es;
      }
      StatementsRoundTrip(es);
      var out := Finish(outs).value;
      var body := Statements(es);
      assert out[|Header|..|out| - |Footer|] == body;
      PairsNonEmpty(es);
    }
  }

  /** End to end: a successful run writes the header, then statement blocks
      that read back as one (entity, index) pair per index of every entity
      found, in file order, at least one of them, then the footer. */
  lemma ConvertOutput(input: Input)
    ensures Convert(input).Ok? ==>
      var out := Convert(input).value;
      var es := Gather(Outcomes(Files(input))).value;
      && |Header| + |Footer| <= |out|
      && out[..|Header|] == Header
      && out[|out| - |Footer|..] == Footer
      && ReadStatements(out[|Header|..|out| - |Footer|]) == Some(Pairs(es))
      && Pairs(es) != []
  {
    var outs := Outcomes(Files(input));
    forall i | 0 <= i < |outs| && outs[i].Ok? && outs[i].value.Extracted?
      ensures ValidEntity(outs[i].value.entity) && outs[i].value.entity.indexes != []
    {
      ExtractedValid(Files(input)[i]);
    }
    FinishOutput(outs);
  }
}

=== FILE: emitter.dfy ===
/**
 * The field expression of one generated `HasIndex` call: `e.F` for an index
 * on one column, `new { e.F1, e.F2, ... }` for several; and a reader for
 * that notation, which recovers the columns from the expression.
 */
module Emitter {
  import opened Wrappers
  import opened Text

  /** `String.Join(", ", xs)`. */
  function Join(xs: seq<string>): string {
    if xs == [] then []
    else if |xs| == 1 then xs[0]
    else xs[0] + ", " + Join(xs[1..])
  }

  /** The member access `e.f`. */
  function Access(f: string): string {
    "e." + f
  }

  function Accesses(fs: seq<string>): seq<string> {
    seq(|fs|, i requires 0 <= i < |fs| => Access(fs[i]))
  }

  /** The lambda body rendered for an index whose columns are `fs`. */
  function FieldExpr(fs: seq<string>): string {
    if |fs| == 1 then Access(fs[0]) else "new { " + Join(Accesses(fs)) + " }"
  }

  /** Reads one member access at the front of `s`: the column and what
      follows it. */
  function ReadAccess(s: string): (r: Option<(string, string)>)
    ensures r.Some? ==> s == Access(r.value.0) + r.value.1 && IsWord(r.value.0)
    ensures r.Some? ==> r.value.1 == [] || !IsWordChar(r.value.1[0])
  {
    var body := StripPrefix(s, "e.");
    if body.None? then None
    else
      var parts := Span(body.value, IsWordChar);
      if parts.0 == [] then None else Some(parts)
  }

  /** Reads `e.f1, e.f2, ...` filling the whole of `s`. */
  function ReadAccessList(s: string): (r: Option<seq<string>>)
    ensures r.Some? ==> r.value != [] && forall i :: 0 <= i < |r.value| ==> IsWord(r.value[i])
    decreases |s|
  {
    var a := ReadAccess(s);
    if a.None? then None
    else if a.value.1 == [] then Some([a.value.0])
    else
      var next := StripPrefix(a.value.1, ", ");
      if next.None? then None
      else
        var tail := ReadAccessList(next.value);
        if tail.None? then None else Some([a.value.0] + tail.value)
  }

  /** Reads a field expression back into its columns. */
  function ReadFieldExpr(s: string): (r: Option<seq<string>>)
    ensures r.Some? ==> r.value != [] && forall i :: 0 <= i < |r.value| ==> IsWord(r.value[i])
  {
    var body := StripPrefix(s, "new { ");
    if body.Some? && |body.value| >= 2 && body.value[|body.value| - 2..] == " }" then
      ReadAccessList(body.value[..|body.value| - 2])
    else
      var a := ReadAccess(s);
      if a.Some? && a.value.1 == [] then Some([a.value.0]) else None
  }
}

=== FILE: emitter_lemmas.dfy ===
/**
 * The field expression loses nothing: reading it back yields the index's
 * columns, in order.
 */
module EmitterLemmas {
  import opened Wrappers
  import opened Text
  import opened Emitter

  lemma StripFront(w: string, rest: string)
    ensures StripPrefix(w + rest, w) == Some(rest)
  {
    assert (w + rest)[..|w|] == w;
  }

  lemma ReadAccessOf(f: string, rest: string)
    requires IsWord(f)
    requires rest == [] || !IsWordChar(rest[0])
    ensures ReadAccess(Access(f) + rest) == Some((f, rest))
  {
    assert Access(f) + rest == "e." + (f + rest);
    StripFront("e.", f + rest);
    SpanOf(f, rest, IsWordChar);
  }

  lemma {:induction false} ReadAccessListOf(fs: seq<string>)
    requires fs != [] && forall i :: 0 <= i < |fs| ==> IsWord(fs[i])
    ensures ReadAccessList(Join(Accesses(fs))) == Some(fs)
  {
    if |fs| == 1 {
      assert Join(Accesses(fs)) == Access(fs[0]) + [];
      ReadAccessOf(fs[0], []);
      assert fs == [fs[0]];
    } else {
      var tail := Join(Accesses(fs[1..]));
      assert Accesses(fs)[1..] == Accesses(fs[1..]);
      assert Join(Accesses(fs)) == Access(fs[0]) + (", " + tail);
      assert !IsWordChar((", " + tail)[0]);
      ReadAccessOf(fs[0], ", " + tail);
      StripFront(", ", tail);
      ReadAccessListOf(fs[1..]);
      assert [fs[0]] + fs[1..] == fs;
    }
  }

  /** A one-column expression is not mistaken for the composite form. */
  lemma AccessIsNotComposite(f: string)
    ensures StripPrefix(Access(f), "new { ").None?
  {
    if |Access(f)| >= 6 {
      assert Access(f)[0] == 'e';
      assert "new { "[0] == 'n';
    }
  }

  /** Reading a rendered field expression gives back the index's columns,
      in their order. */
  lemma FieldExprRoundTrip(fs: seq<string>)
    requires fs != [] && forall i :: 0 <= i < |fs| ==> IsWord(fs[i])
    ensures ReadFieldExpr(FieldExpr(fs)) == Some(fs)
  {
    if |fs| == 1 {
      AccessIsNotComposite(fs[0]);
      assert FieldExpr(fs) == Access(fs[0]) + [];
      ReadAccessOf(fs[0], []);
      assert fs == [fs[0]];
    } else {
      var j := Join(Accesses(fs));
      assert FieldExpr(fs) == "new { " + (j + " }");
      StripFront("new { ", j + " }");
      assert (j + " }")[|j + " }"| - 2..] == " }";
      assert (j + " }")[..|j + " }"| - 2] == j;
      ReadAccessListOf(fs);
    }
  }
}

=== FILE: extractor.dfy ===
/**
 * One source file to one entity: find the class name, collect every
 * annotated auto-property after it, and group their annotations into
 * indexes. A file without a class, without annotated properties or without
 * indexes is skipped; the accumulator's failures end the run.
 */
module Extractor {
  import opened Wrappers
  import opened Model
  import opened Patterns
  import opened Reader
  import opened Scanner
  import opened Grouping

  /** The properties returned by repeated calls of the accumulator on the
      classified lines `ks`, until it reports the end of the file; the first
      failure of a call is the failure of the whole. */
  function Collect(ks: seq<LineKind>): (r: Result<seq<Property>>)
    ensures r.Err? ==> r.error == IndexWithoutProperty || r.error == OrderOverflow
    decreases |ks|
  {
    var step := NextProperty(ks);
    if step.Err? then Err(step.error)
    else if step.value.Exhausted? then Ok([])
    else Prepend([step.value.property], Collect(step.value.rest))
  }

  /** `ps` in front of the properties of `r`, or the failure of `r`. */
  function Prepend(ps: seq<Property>, r: Result<seq<Property>>): Result<seq<Property>> {
    if r.Err? then r else Ok(ps + r.value)
  }

  /** What `tryGetEntity` makes of the lines `ls` of one file. */
  function Extract(ls: seq<string>): (r: Result<Extraction>)
    ensures r.Err? ==> r.error == IndexWithoutProperty || r.error == OrderOverflow
  {
    var cls := FirstClass(ls);
    if cls.None? then Ok(Skipped(NoClassName))
    else ExtractFrom(cls.value.0, Kinds(cls.value.1))
  }

  /** What `tryGetEntity` makes of the classified lines `ks` after the line
      that declares the class `className`. */
  function ExtractFrom(className: string, ks: seq<LineKind>): (r: Result<Extraction>)
    ensures r.Err? ==> r.error == IndexWithoutProperty || r.error == OrderOverflow
    ensures r.Ok? && r.value.Extracted? ==> r.value.entity.name == className && r.value.entity.indexes != []
  {
    var props := Collect(ks);
    if props.Err? then Err(props.error)
    else if props.value == [] then Ok(Skipped(NoIndexedProperties))
    else
      var indexes := GroupIndexes(props.value);
      if indexes == [] then Ok(Skipped(NoIndexes))
      else Ok(Extracted(Entity(className, indexes)))
  }

  /** One call of the accumulator, seen from the collected result: its
      failure is the failure of the whole, the end of the file collects
      nothing more, and a property goes in front of the later ones. */
  lemma CollectStep(ks: seq<LineKind>, ps: seq<Property>)
    ensures var step := NextProperty(ks);
      && (step.Err? ==> Prepend(ps, Collect(ks)) == Err(step.error))
      && (step == Ok(Exhausted) ==> Prepend(ps, Collect(ks)) == Ok(ps))
      && (step.Ok? && step.value.Found? ==>
            Prepend(ps, Collect(ks)) == Prepend(ps + [step.value.property], Collect(step.value.rest)))
  {
    var step := NextProperty(ks);
    if step == Ok(Exhausted) {
      assert ps + [] == ps;
    } else if step.Ok? && step.value.Found? {
      var tail := Collect(step.value.rest);
      if tail.Ok? {
        assert ps + ([step.value.property] + tail.value) == (ps + [step.value.property]) + tail.value;
      }
    }
  }

  /** The loop of `tryGetEntity` that calls the accumulator until it
      reports the end of the file, keeping every property it returns. */
  method CollectProperties(reader: LineReader) returns (r: Result<seq<Property>>)
    requires reader.Valid()
    modifies reader
    ensures reader.Valid()
    ensures r == Collect(Kinds(old(reader.Remaining())))
    ensures r.Ok? ==> reader.Remaining() == []
  {
    ghost var start := Kinds(reader.Remaining());
    var properties: seq<Property> := [];
    assert Collect(start).Ok? ==> [] + Collect(start).value == Collect(start).value;
    while true
      invariant reader.Valid()
      invariant Collect(start) == Prepend(properties, Collect(Kinds(reader.Remaining())))
      decreases |reader.source| - reader.pos
    {
      CollectStep(Kinds(reader.Remaining()), properties);
      var next := TryGetNextIndexProperty(reader);
      if next.Err? {
        return Err(next.error);
      }
      if next.value.None? {
        return Ok(properties);
      }
      properties := properties + [next.value.value];
    }
  }

  /** `tryGetEntity`: the class name, then the annotated properties after
      it, then their annotations grouped into indexes. */
  method TryGetEntity(lines: seq<string>) returns (r: Result<Extraction>)
    ensures r == Extract(lines)
  {
    var reader := new LineReader(lines);
    var className := GetClassName(reader);
    if className.None? {
      return Ok(Skipped(NoClassName));
    }
    var properties := CollectProperties(reader);
    if properties.Err? {
      return Err(properties.error);
    }
    if |properties.value| == 0 {
      return Ok(Skipped(NoIndexedProperties));
    }
    var indexes := GroupIndexes(properties.value);
    if |indexes| == 0 {
      return Ok(Skipped(NoIndexes));
    }
    return Ok(Extracted(Entity(className.value, indexes)));
  }
}

=== FILE: extractor_lemmas.dfy ===
/**
 * What one file's extraction promises: the run fails on an order beyond a
 * C# `int` or on an annotation left without a property, and on nothing
 * else; otherwise every annotation line after the class line ends up in
 * exactly one index column, under the name of the auto-property below it.
 */
module ExtractorLemmas {
  import opened Wrappers
  import opened Model
  import opened Patterns
  import opened Scanner
  import opened ScannerLemmas
  import opened Grouping
  import opened GroupingLemmas
  import opened Extractor

  /** An attribute with its link to the owning property dropped. */
  function Unlinked(s: seq<IndexAttr>): (r: seq<Annotation>)
    ensures |r| == |s|
    ensures forall i :: 0 <= i < |s| ==>
      r[i] == Annotation(s[i].indexName, s[i].order)
  {
    seq(|s|, i requires 0 <= i < |s| => Annotation(s[i].indexName, s[i].order))
  }

  /** Some annotation line of `ks` has no auto-property line after it. */
  predicate Dangling(ks: seq<LineKind>) {
    exists i :: 0 <= i < |ks| && ks[i].IndexAttrLine? && NoPropertyAfter(ks, i)
  }

  predicate NoPropertyAfter(ks: seq<LineKind>, i: nat) {
    forall j :: i < j < |ks| ==> !ks[j].AutoPropLine?
  }

  lemma {:induction false} AttrLinesEmpty(ks: seq<LineKind>)
    ensures AttrLines(ks) == [] <==> forall i :: 0 <= i < |ks| ==> !ks[i].IndexAttrLine?
  {
    if ks != [] {
      AttrLinesEmpty(ks[1..]);
      assert forall i :: 1 <= i < |ks| ==> ks[i] == ks[1..][i - 1];
    }
  }

  lemma AttrLinesPrefixEmpty(ks: seq<LineKind>, j: nat)
    requires j <= |ks| && AttrLines(ks[..j]) == []
    ensures forall i :: 0 <= i < j ==> !ks[i].IndexAttrLine?
  {
    AttrLinesEmpty(ks[..j]);
    assert forall i :: 0 <= i < j ==> ks[..j][i] == ks[i];
  }

  /** Dropping an auto-property line leaves the annotation lines around it. */
  lemma AttrLinesAround(ks: seq<LineKind>, c: nat)
    requires 0 < c <= |ks| && ks[c - 1].AutoPropLine?
    ensures AttrLines(ks) == AttrLines(ks[..c - 1]) + AttrLines(ks[c..])
  {
    var tail := ks[c - 1..];
    assert ks[..c - 1] + tail == ks;
    AttrLinesConcat(ks[..c - 1], tail);
    assert tail[0] == ks[c - 1] && tail[1..] == ks[c..];
    assert AttrLines(tail) == [] + AttrLines(ks[c..]);
    assert [] + AttrLines(ks[c..]) == AttrLines(ks[c..]);
  }

  /** Attaching annotations to a property and unlinking them again gives
      back the annotations. */
  lemma UnlinkedAttachAll(anns: seq<Annotation>, name: string)
    ensures Unlinked(AttachAll(anns, name)) == anns
  {
  }

  /** The lines consumed by one call of the accumulator that returned a
      property, and the lines it leaves. */
  lemma FoundSplit(ks: seq<LineKind>)
    requires NextProperty(ks).Ok? && NextProperty(ks).value.Found?
    ensures var step := NextProperty(ks).value;
      var c := |ks| - |step.rest|;
      && 0 < c && step.rest == ks[c..] && ks[c - 1].AutoPropLine?
      && ks[c - 1].name == step.property.name
      && WellFormed(step.property)
      && Unlinked(step.property.attrs) == AttrLines(ks[..c - 1])
      && AttrLines(ks) == AttrLines(ks[..c - 1]) + AttrLines(step.rest)
      && forall j :: 0 <= j < c - 1 && ks[j].AutoPropLine? ==> AttrLines(ks[..j]) == []
  {
    var step := NextProperty(ks).value;
    var c := |ks| - |step.rest|;
    ScanFound(ks, []);
    var prefix := AttrLines(ks[..c - 1]);
    assert [] + prefix == prefix;
    UnlinkedAttachAll(prefix, step.property.name);
    forall j | 0 <= j < c - 1 && ks[j].AutoPropLine? ensures AttrLines(ks[..j]) == [] {
      assert [] + AttrLines(ks[..j]) == AttrLines(ks[..j]);
    }
    AttrLinesAround(ks, c);
  }

  /** Every collected property is well formed and is named after an
      auto-property line of `ks`. */
  lemma {:induction false} CollectWellFormed(ks: seq<LineKind>)
    requires Collect(ks).Ok?
    ensures forall p :: p in Collect(ks).value ==> WellFormed(p)
    ensures forall p :: p in Collect(ks).value ==>
      exists j :: 0 <= j < |ks| && ks[j].AutoPropLine? && ks[j].name == p.name
    decreases |ks|
  {
    var step := NextProperty(ks);
    if step.value.Found? {
      var p := step.value.property;
      var rest := step.value.rest;
      var c := |ks| - |rest|;
      FoundSplit(ks);
      CollectWellFormed(rest);
      assert Collect(ks).value == [p] + Collect(rest).value;
      forall q | q in Collect(ks).value
        ensures exists j :: 0 <= j < |ks| && ks[j].AutoPropLine? && ks[j].name == q.name
      {
        if q == p {
          assert ks[c - 1].name == q.name;
        } else {
          var j :| 0 <= j < |rest| && rest[j].AutoPropLine? && rest[j].name == q.name;
          assert ks[c + j] == rest[j];
        }
      }
    }
  }

  /** Between them, the collected properties carry the annotation lines of
      `ks`, each exactly once and in order. */
  lemma {:induction false} CollectKeepsAnnotations(ks: seq<LineKind>)
    requires Collect(ks).Ok?
    ensures Unlinked(Flatten(Collect(ks).value)) == AttrLines(ks)
    decreases |ks|
  {
    var step := NextProperty(ks);
    if step.value.Exhausted? {
      ScanExhausted(ks, []);
    } else {
      var p := step.value.property;
      var rest := step.value.rest;
      FoundSplit(ks);
      CollectKeepsAnnotations(rest);
      var ps := Collect(rest).value;
      assert Collect(ks).value == [p] + ps;
      assert ([p] + ps)[1..] == ps;
      assert Unlinked(p.attrs + Flatten(ps)) == Unlinked(p.attrs) + Unlinked(Flatten(ps));
    }
  }

  /** Nothing is collected exactly when no annotation line remains. */
  lemma CollectNothing(ks: seq<LineKind>)
    ensures Collect(ks) == Ok([]) <==> AttrLines(ks) == []
  {
    ScanExhausted(ks, []);
  }

  /** Reading an annotation line beyond a C# `int` always ends the run with
      an order failure, whatever comes before it. */
  lemma {:induction false} ScanReachesOverflow(ks: seq<LineKind>, pending: seq<Annotation>)
    requires !InRange(AttrLines(ks))
    ensures var r := Scan(ks, pending);
      r == Err(OrderOverflow) || (r.Ok? && r.value.Found? && !InRange(AttrLines(r.value.rest)))
  {
    var k := ks[0];
    assert AttrLines(ks) == LineAnnotations(k) + AttrLines(ks[1..]);
    if !(k.IndexAttrLine? && k.annotation.order.GetOr(0) > MaxInt32) {
      assert !InRange(AttrLines(ks[1..])) by {
        var i :| 0 <= i < |AttrLines(ks)| && AttrLines(ks)[i].order.GetOr(0) > MaxInt32;
        if k.IndexAttrLine? {
          assert i != 0;
          assert AttrLines(ks[1..])[i - 1] == AttrLines(ks)[i];
        } else {
          assert AttrLines(ks[1..])[i] == AttrLines(ks)[i];
        }
      }
      if !(k.AutoPropLine? && pending != []) {
        var next := if k.IndexAttrLine? then pending + [k.annotation] else pending;
        ScanReachesOverflow(ks[1..], next);
      }
    }
  }

  /** The run fails on an order exactly when some annotation line declares an
      order beyond a C# `int`. */
  lemma {:induction false} CollectOverflow(ks: seq<LineKind>)
    ensures Collect(ks) == Err(OrderOverflow) <==> !InRange(AttrLines(ks))
    decreases |ks|
  {
    var step := NextProperty(ks);
    if step == Err(OrderOverflow) {
      ScanOverflow(ks, []);
    } else if !InRange(AttrLines(ks)) {
      ScanReachesOverflow(ks, []);
      CollectOverflow(step.value.rest);
    } else if step.Ok? && step.value.Found? {
      FoundSplit(ks);
      var c := |ks| - |step.value.rest|;
      assert InRange(AttrLines(step.value.rest)) by {
        forall i | 0 <= i < |AttrLines(step.value.rest)|
          ensures AttrLines(step.value.rest)[i].order.GetOr(0) <= MaxInt32
        {
          assert AttrLines(step.value.rest)[i] == AttrLines(ks)[|AttrLines(ks[..c - 1])| + i];
        }
      }
      CollectOverflow(step.value.rest);
    }
  }

  /** A first call that fails for a missing property leaves an annotation
      line with no auto-property line after it. */
  lemma MissingIsDangling(ks: seq<LineKind>)
    requires InRange(AttrLines(ks))
    requires NextProperty(ks) == Err(IndexWithoutProperty)
    ensures Dangling(ks)
  {
    ScanMissingProperty(ks, []);
    assert [] + AttrLines(ks) == AttrLines(ks);
    AttrLinesEmpty(ks);
    var i :| 0 <= i < |ks| && ks[i].IndexAttrLine?;
    forall j | i < j < |ks| ensures !ks[j].AutoPropLine? {
      if ks[j].AutoPropLine? {
        assert [] + AttrLines(ks[..j]) == [];
        AttrLinesPrefixEmpty(ks, j);
      }
    }
    assert NoPropertyAfter(ks, i);
  }

  /** A first call that returns a property consumes no dangling annotation,
      and the lines it leaves keep their orders in range. */
  lemma DanglingAfterFound(ks: seq<LineKind>)
    requires InRange(AttrLines(ks))
    requires NextProperty(ks).Ok? && NextProperty(ks).value.Found?
    ensures var rest := NextProperty(ks).value.rest;
      InRange(AttrLines(rest)) && (Dangling(ks) <==> Dangling(rest))
  {
    FoundSplit(ks);
    var rest := NextProperty(ks).value.rest;
    var c := |ks| - |rest|;
    assert InRange(AttrLines(rest)) by {
      forall i | 0 <= i < |AttrLines(rest)|
        ensures AttrLines(rest)[i].order.GetOr(0) <= MaxInt32
      {
        assert AttrLines(rest)[i] == AttrLines(ks)[|AttrLines(ks[..c - 1])| + i];
      }
    }
    if Dangling(ks) {
      var i :| 0 <= i < |ks| && ks[i].IndexAttrLine? && NoPropertyAfter(ks, i);
      assert i >= c;
      assert rest[i - c] == ks[i];
      assert NoPropertyAfter(rest, i - c);
    }
    if Dangling(rest) {
      var i :| 0 <= i < |rest| && rest[i].IndexAttrLine? && NoPropertyAfter(rest, i);
      assert ks[c + i] == rest[i];
      assert NoPropertyAfter(ks, c + i);
    }
  }

  /** When every declared order fits a C# `int`, the run fails for a missing
      property exactly when some annotation line has no auto-property line
      after it. */
  lemma {:induction false} CollectMissingProperty(ks: seq<LineKind>)
    requires InRange(AttrLines(ks))
    ensures Collect(ks) == Err(IndexWithoutProperty) <==> Dangling(ks)
    decreases |ks|
  {
    var step := NextProperty(ks);
    if step == Err(IndexWithoutProperty) {
      MissingIsDangling(ks);
    } else if step.Err? {
      ScanOverflow(ks, []);
    } else if step.value.Exhausted? {
      ScanExhausted(ks, []);
      AttrLinesEmpty(ks);
    } else {
      DanglingAfterFound(ks);
      CollectMissingProperty(step.value.rest);
    }
  }

  lemma {:induction false} FlattenMember(ps: seq<Property>, x: IndexAttr)
    requires x in Flatten(ps)
    ensures exists p :: p in ps && x in p.attrs
  {
    if x !in ps[0].attrs {
      FlattenMember(ps[1..], x);
      var p :| p in ps[1..] && x in p.attrs;
      assert p in ps;
    }
  }

  /** After its class line, a file fails the run only for an order beyond
      a C# `int` or for an annotation line with no auto-property line after
      it; an order failure is reported whenever one is present. */
  lemma ExtractFailure(className: string, ks: seq<LineKind>)
    ensures ExtractFrom(className, ks) == Err(OrderOverflow) <==> !InRange(AttrLines(ks))
    ensures InRange(AttrLines(ks)) ==>
      (ExtractFrom(className, ks) == Err(IndexWithoutProperty) <==> Dangling(ks))
  {
    CollectOverflow(ks);
    if InRange(AttrLines(ks)) {
      CollectMissingProperty(ks);
    }
  }

  /** A file is read from just after its first class declaration: the
      lines up to and including that line, annotations among them, take no
      part in what is extracted. */
  lemma ExtractAfterClass(ls: seq<string>)
    requires FirstClass(ls).Some?
    ensures var cls := FirstClass(ls).value;
      var c := |ls| - |cls.1|;
      && 0 < c
      && ClassOf(ls[c - 1]) == Some(cls.0)
      && (forall j :: 0 <= j < c - 1 ==> ClassOf(ls[j]).None?)
      && Extract(ls) == ExtractFrom(cls.0, Kinds(ls[c..]))
  {
    FirstClassFinds(ls);
  }

  /** A file with a class is skipped for want of annotated properties
      exactly when no annotation line follows its class line. */
  lemma ExtractNoProperties(className: string, ks: seq<LineKind>)
    ensures ExtractFrom(className, ks) == Ok(Skipped(NoIndexedProperties)) <==> AttrLines(ks) == []
  {
    CollectNothing(ks);
  }

  /** Once some property has been collected there is always an index, so
      the skip for a file without indexes never happens. */
  lemma ExtractNeverNoIndexes(ls: seq<string>)
    ensures Extract(ls) != Ok(Skipped(NoIndexes))
  {
    var cls := FirstClass(ls);
    if cls.Some? {
      NoIndexesUnreachable(cls.value.0, Kinds(cls.value.1));
    }
  }

  lemma NoIndexesUnreachable(className: string, ks: seq<LineKind>)
    ensures ExtractFrom(className, ks) != Ok(Skipped(NoIndexes))
  {
    var props := Collect(ks);
    if props.Ok? && props.value != [] {
      var ps := props.value;
      CollectWellFormed(ks);
      assert ps[0] in ps;
      assert Flatten(ps) == ps[0].attrs + Flatten(ps[1..]);
      var s := Flatten(ps);
      IndexNamesExact(s);
      assert s[0].indexName in IndexNames(s);
    }
  }

  /** An extracted entity carries the class name; its index names are
      distinct and are exactly the index names of the annotation lines after
      the class line; and no index is without a column. */
  lemma ExtractedIndexes(className: string, ks: seq<LineKind>)
    requires ExtractFrom(className, ks).Ok? && ExtractFrom(className, ks).value.Extracted?
    ensures var e := ExtractFrom(className, ks).value.entity;
      var anns := AttrLines(ks);
      && e.name == className
      && (forall i, j :: 0 <= i < j < |e.indexes| ==> e.indexes[i].name != e.indexes[j].name)
      && (forall a :: a in anns ==> exists i :: 0 <= i < |e.indexes| && e.indexes[i].name == a.indexName)
      && (forall i :: 0 <= i < |e.indexes| ==> exists a :: a in anns && a.indexName == e.indexes[i].name)
      && (forall i :: 0 <= i < |e.indexes| ==> e.indexes[i].fieldNames != [])
  {
    var ps := Collect(ks).value;
    CollectKeepsAnnotations(ks);
    GroupIndexesNames(ps);
    IndexNamesOfAnnotations(ps, AttrLines(ks));
    forall i | 0 <= i < |GroupIndexes(ps)| ensures GroupIndexes(ps)[i].fieldNames != [] {
      GroupIndexesColumns(ps, i);
    }
  }

  /** The indexes built from `ps` are named exactly by the index names of
      the annotations `ps` carries. */
  lemma IndexNamesOfAnnotations(ps: seq<Property>, anns: seq<Annotation>)
    requires Unlinked(Flatten(ps)) == anns
    ensures var ix := GroupIndexes(ps);
      && (forall a :: a in anns ==> exists i :: 0 <= i < |ix| && ix[i].name == a.indexName)
      && (forall i :: 0 <= i < |ix| ==> exists a :: a in anns && a.indexName == ix[i].name)
  {
    AnnotationsIndexed(ps, anns);
    IndexesAnnotated(ps, anns);
  }

  lemma AnnotationsIndexed(ps: seq<Property>, anns: seq<Annotation>)
    requires Unlinked(Flatten(ps)) == anns
    ensures var ix := GroupIndexes(ps);
      forall a :: a in anns ==> exists i :: 0 <= i < |ix| && ix[i].name == a.indexName
  {
    var s := Flatten(ps);
    var ix := GroupIndexes(ps);
    GroupIndexesNames(ps);
    forall a | a in anns ensures exists i :: 0 <= i < |ix| && ix[i].name == a.indexName {
      var m :| 0 <= m < |anns| && anns[m] == a;
      assert s[m] in s;
    }
  }

  lemma IndexesAnnotated(ps: seq<Property>, anns: seq<Annotation>)
    requires Unlinked(Flatten(ps)) == anns
    ensures var ix := GroupIndexes(ps);
      forall i :: 0 <= i < |ix| ==> exists a :: a in anns && a.indexName == ix[i].name
  {
    var s := Flatten(ps);
    var ix := GroupIndexes(ps);
    GroupIndexesNames(ps);
    forall i | 0 <= i < |ix| ensures exists a :: a in anns && a.indexName == ix[i].name {
      var m :| 0 <= m < |s| && s[m].indexName == ix[i].name;
      assert anns[m] in anns;
    }
  }

  /** Every column of the grouped indexes is the name of a collected
      property, as long as each property's attributes refer back to it. */
  lemma ColumnsNamedByProperties(ps: seq<Property>)
    requires forall p :: p in ps ==> Linked(p)
    ensures forall f :: f in AllFieldNames(GroupIndexes(ps)) ==> exists p :: p in ps && p.name == f
  {
    var s := Flatten(ps);
    GroupIndexesConserve(ps);
    var g :| multiset(g) == multiset(s) && AllFieldNames(GroupIndexes(ps)) == FieldNames(g);
    forall f | f in AllFieldNames(GroupIndexes(ps)) ensures exists p :: p in ps && p.name == f {
      var k :| 0 <= k < |g| && FieldNames(g)[k] == f;
      assert g[k] in multiset(s);
      FlattenMember(ps, g[k]);
      var p :| p in ps && g[k] in p.attrs;
      var m :| 0 <= m < |p.attrs| && p.attrs[m] == g[k];
    }
  }

  /** Across the indexes of an extracted entity there is one column per
      annotation line after the class line, and every column is the name of
      an auto-property line after the class line. */
  lemma ExtractedColumns(className: string, ks: seq<LineKind>)
    requires ExtractFrom(className, ks).Ok? && ExtractFrom(className, ks).value.Extracted?
    ensures var e := ExtractFrom(className, ks).value.entity;
      && |AllFieldNames(e.indexes)| == |AttrLines(ks)|
      && forall f :: f in AllFieldNames(e.indexes) ==>
           exists j :: 0 <= j < |ks| && ks[j].AutoPropLine? && ks[j].name == f
  {
    var ps := Collect(ks).value;
    CollectKeepsAnnotations(ks);
    CollectWellFormed(ks);
    GroupIndexesConserve(ps);
    ColumnsNamedByProperties(ps);
    forall f | f in AllFieldNames(GroupIndexes(ps))
      ensures exists j :: 0 <= j < |ks| && ks[j].AutoPropLine? && ks[j].name == f
    {
      var p :| p in ps && p.name == f;
    }
  }
}

=== FILE: grouping.dfy ===
/**
 * The grouping step of entity extraction: every attribute of every
 * collected property, grouped by index name (groups in order of each name's
 * first appearance, members in their original order), each group stably
 * sorted by declared order (no order first) and turned into the names of
 * the owning properties.
 */
module Grouping {
  import opened Wrappers
  import opened Model

  /** `properties.SelectMany(p => p.IndexAttrs)`. */
  function Flatten(props: seq<Property>): seq<IndexAttr> {
    if props == [] then [] else props[0].attrs + Flatten(props[1..])
  }

  /** The name `n` is the index name of some attribute of `s`. */
  predicate Occurs(s: seq<IndexAttr>, n: string) {
    exists i :: 0 <= i < |s| && s[i].indexName == n
  }

  predicate Distinct(keys: seq<string>) {
    forall i, j :: 0 <= i < j < |keys| ==> keys[i] != keys[j]
  }

  /** The keys of `GroupBy(a => a.IndexName)`, in the order the groups come
      out: each index name once, where it first appears. */
  function IndexNames(s: seq<IndexAttr>): seq<string> {
    if s == [] then []
    else
      var keys := IndexNames(s[..|s| - 1]);
      var n := s[|s| - 1].indexName;
      if n in keys then keys else keys + [n]
  }

  /** The position of the first attribute of `s` named `n`; `|s|` if none. */
  function FirstPos(s: seq<IndexAttr>, n: string): (r: nat)
    ensures r <= |s|
    ensures r < |s| ==> s[r].indexName == n
    ensures forall j :: 0 <= j < r ==> s[j].indexName != n
  {
    if s == [] then 0
    else if s[0].indexName == n then 0
    else 1 + FirstPos(s[1..], n)
  }

  /** One group of `GroupBy`: the attributes named `k`, in their order. */
  function Group(s: seq<IndexAttr>, k: string): seq<IndexAttr> {
    if s == [] then []
    else (if s[0].indexName == k then [s[0]] else []) + Group(s[1..], k)
  }

  /** `Comparer<int?>.Default`: no order comes before every order, and
      orders compare as numbers. */
  predicate OrderLe(a: Option<nat>, b: Option<nat>) {
    a.None? || (b.Some? && a.value <= b.value)
  }

  predicate SortedByOrder(s: seq<IndexAttr>) {
    forall i, j :: 0 <= i < j < |s| ==> OrderLe(s[i].order, s[j].order)
  }

  /** The attributes of `s` whose declared order is `k`, in their order. */
  function WithOrder(s: seq<IndexAttr>, k: Option<nat>): seq<IndexAttr> {
    if s == [] then []
    else (if s[0].order == k then [s[0]] else []) + WithOrder(s[1..], k)
  }

  /** Puts `x` before the first element of `t` whose order is not below its
      own. */
  function Insert(x: IndexAttr, t: seq<IndexAttr>): (r: seq<IndexAttr>)
    ensures multiset(r) == multiset(t) + multiset{x}
  {
    if t == [] then [x]
    else if OrderLe(x.order, t[0].order) then [x] + t
    else
      assert t == [t[0]] + t[1..];
      [t[0]] + Insert(x, t[1..])
  }

  /** `OrderBy(a => a.Order)`: a stable sort by declared order. */
  function SortByOrder(s: seq<IndexAttr>): (r: seq<IndexAttr>)
    ensures multiset(r) == multiset(s)
  {
    if s == [] then []
    else
      assert s == [s[0]] + s[1..];
      Insert(s[0], SortByOrder(s[1..]))
  }

  /** `Select(a => a.Property.Name)`. */
  function FieldNames(s: seq<IndexAttr>): (r: seq<string>)
    ensures |r| == |s|
    ensures forall i :: 0 <= i < |s| ==> r[i] == s[i].property
  {
    if s == [] then [] else [s[0].property] + FieldNames(s[1..])
  }

  /** One index per key, in the order of `keys`. */
  function BuildIndexes(s: seq<IndexAttr>, keys: seq<string>): (r: seq<Index>)
    ensures |r| == |keys|
    ensures forall i :: 0 <= i < |keys| ==>
      r[i] == Index(keys[i], FieldNames(SortByOrder(Group(s, keys[i]))))
  {
    if keys == [] then []
    else [Index(keys[0], FieldNames(SortByOrder(Group(s, keys[0]))))] + BuildIndexes(s, keys[1..])
  }

  /** The indexes of one entity, from the properties collected for it. */
  function GroupIndexes(props: seq<Property>): seq<Index> {
    var s := Flatten(props);
    BuildIndexes(s, IndexNames(s))
  }

  /** The column names of all indexes, one index after the other. */
  function AllFieldNames(ix: seq<Index>): seq<string> {
    if ix == [] then [] else ix[0].fieldNames + AllFieldNames(ix[1..])
  }
}

=== FILE: grouping_lemmas.dfy ===
/**
 * What grouping promises: one index per distinct index name, in order of
 * first appearance; each index's columns stably sorted by declared order;
 * and no attribute lost or duplicated on the way.
 */
module GroupingLemmas {
  import opened Wrappers
  import opened Model
  import opened Grouping

  /** Every name of `IndexNames(s)` is distinct, every attribute's index name
      is among them, and each of them names some attribute. */
  lemma {:induction false} IndexNamesExact(s: seq<IndexAttr>)
    ensures Distinct(IndexNames(s))
    ensures forall i :: 0 <= i < |s| ==> s[i].indexName in IndexNames(s)
    ensures forall n :: n in IndexNames(s) ==> Occurs(s, n)
  {
    if s != [] {
      var s' := s[..|s| - 1];
      IndexNamesExact(s');
      assert forall i :: 0 <= i < |s'| ==> s'[i] == s[i];
      forall n | n in IndexNames(s) ensures Occurs(s, n) {
        if n in IndexNames(s') {
          var i :| 0 <= i < |s'| && s'[i].indexName == n;
          assert s[i].indexName == n;
        } else {
          assert s[|s| - 1].indexName == n;
        }
      }
    }
  }

  /** `FirstPos` is determined by its contract. */
  lemma FirstPosUnique(s: seq<IndexAttr>, n: string, r: nat)
    requires r <= |s| && (r < |s| ==> s[r].indexName == n)
    requires forall j :: 0 <= j < r ==> s[j].indexName != n
    ensures FirstPos(s, n) == r
  {
  }

  /** Appending an attribute does not move the first appearance of a name
      already present. */
  lemma FirstPosPrefix(s: seq<IndexAttr>, k: string)
    requires s != [] && Occurs(s[..|s| - 1], k)
    ensures FirstPos(s, k) == FirstPos(s[..|s| - 1], k) < |s| - 1
  {
    var s' := s[..|s| - 1];
    var f := FirstPos(s', k);
    assert f < |s'| by {
      var i :| 0 <= i < |s'| && s'[i].indexName == k;
    }
    assert forall j :: 0 <= j <= f ==> s[j] == s'[j];
    FirstPosUnique(s, k, f);
  }

  /** The groups come out in the order their names first appear. */
  lemma {:induction false} IndexNamesInEncounterOrder(s: seq<IndexAttr>)
    ensures forall i, j :: 0 <= i < j < |IndexNames(s)| ==>
      FirstPos(s, IndexNames(s)[i]) < FirstPos(s, IndexNames(s)[j]) < |s|
  {
    if s != [] {
      var s' := s[..|s| - 1];
      var x := s[|s| - 1];
      var keys' := IndexNames(s');
      var keys := IndexNames(s);
      IndexNamesInEncounterOrder(s');
      IndexNamesExact(s');
      if x.indexName !in keys' {
        forall j | 0 <= j < |s'| ensures s[j].indexName != x.indexName {
          assert s[j] == s'[j];
        }
        FirstPosUnique(s, x.indexName, |s'|);
      }
      assert keys == if x.indexName in keys' then keys' else keys' + [x.indexName];
      forall i, j | 0 <= i < j < |keys|
        ensures FirstPos(s, keys[i]) < FirstPos(s, keys[j]) < |s|
      {
        FirstPosPrefix(s, keys[i]);
        if j < |keys'| {
          FirstPosPrefix(s, keys[j]);
        }
      }
    }
  }

  /** Inserting moves `x` to just before the first element not below it, so
      among the attributes of any one order, `x` stays first. */
  lemma WithOrderCons(y: IndexAttr, s: seq<IndexAttr>, k: Option<nat>)
    ensures WithOrder([y] + s, k) == (if y.order == k then [y] else []) + WithOrder(s, k)
  {
    assert ([y] + s)[0] == y && ([y] + s)[1..] == s;
  }

  /** Two attributes with different orders never both have order `k`, so
      their contributions to `WithOrder` commute. */
  lemma WithOrderSwap(x: IndexAttr, y: IndexAttr, w: seq<IndexAttr>, k: Option<nat>)
    requires x.order != y.order
    ensures WithOrder([y] + ([x] + w), k) == WithOrder([x] + ([y] + w), k)
  {
    WithOrderCons(y, [x] + w, k);
    WithOrderCons(x, w, k);
    WithOrderCons(x, [y] + w, k);
    WithOrderCons(y, w, k);
  }

  lemma {:induction false} InsertWithOrder(x: IndexAttr, t: seq<IndexAttr>, k: Option<nat>)
    ensures WithOrder(Insert(x, t), k) == WithOrder([x] + t, k)
  {
    if t != [] && !OrderLe(x.order, t[0].order) {
      var y := t[0];
      var u := t[1..];
      InsertWithOrder(x, u, k);
      WithOrderCons(y, Insert(x, u), k);
      WithOrderCons(y, [x] + u, k);
      assert [x] + t == [x] + ([y] + u);
      WithOrderSwap(x, y, u, k);
    }
  }

  lemma {:induction false} InsertSorted(x: IndexAttr, t: seq<IndexAttr>)
    requires SortedByOrder(t)
    ensures SortedByOrder(Insert(x, t))
  {
    if t != [] && !OrderLe(x.order, t[0].order) {
      var u := Insert(x, t[1..]);
      InsertSorted(x, t[1..]);
      forall j | 0 <= j < |u| ensures OrderLe(t[0].order, u[j].order) {
        assert u[j] in multiset(u);
        if u[j] != x {
          assert u[j] in multiset(t[1..]);
          var m :| 0 <= m < |t[1..]| && t[1..][m] == u[j];
          assert t[m + 1] == u[j];
        }
      }
    }
  }

  /** The sort puts attributes without an order first, orders ascending, and
      keeps the original relative order of attributes with equal orders:
      together with `SortByOrder`'s multiset contract, exactly a stable
      sort. */
  lemma {:induction false} SortByOrderStable(s: seq<IndexAttr>)
    ensures SortedByOrder(SortByOrder(s))
    ensures forall k :: WithOrder(SortByOrder(s), k) == WithOrder(s, k)
  {
    if s != [] {
      SortByOrderStable(s[1..]);
      InsertSorted(s[0], SortByOrder(s[1..]));
      forall k ensures WithOrder(SortByOrder(s), k) == WithOrder(s, k) {
        InsertWithOrder(s[0], SortByOrder(s[1..]), k);
        assert ([s[0]] + SortByOrder(s[1..]))[1..] == SortByOrder(s[1..]);
      }
    }
  }

  lemma {:induction false} FlattenConcat(a: seq<Property>, b: seq<Property>)
    ensures Flatten(a + b) == Flatten(a) + Flatten(b)
  {
    if a == [] {
      assert a + b == b;
    } else {
      assert (a + b)[1..] == a[1..] + b;
      FlattenConcat(a[1..], b);
    }
  }

  /** The attributes of `s` whose index name is in `names`, in order. */
  function Within(s: seq<IndexAttr>, names: set<string>): seq<IndexAttr> {
    if s == [] then []
    else (if s[0].indexName in names then [s[0]] else []) + Within(s[1..], names)
  }

  /** The names of `keys`, as a set. */
  function KeySet(keys: seq<string>): (r: set<string>)
    ensures forall n :: n in r <==> n in keys
  {
    if keys == [] then {} else {keys[0]} + KeySet(keys[1..])
  }

  /** All groups of `keys`, one after the other, each sorted. */
  function Regroup(s: seq<IndexAttr>, keys: seq<string>): seq<IndexAttr> {
    if keys == [] then [] else SortByOrder(Group(s, keys[0])) + Regroup(s, keys[1..])
  }

  lemma {:induction false} WithinSplit(s: seq<IndexAttr>, k: string, names: set<string>)
    requires k !in names
    ensures multiset(Within(s, {k} + names)) == multiset(Group(s, k)) + multiset(Within(s, names))
  {
    if s != [] {
      WithinSplit(s[1..], k, names);
    }
  }

  lemma {:induction false} WithinAll(s: seq<IndexAttr>, names: set<string>)
    requires forall i :: 0 <= i < |s| ==> s[i].indexName in names
    ensures Within(s, names) == s
  {
    if s != [] {
      WithinAll(s[1..], names);
      assert s == [s[0]] + s[1..];
    }
  }

  lemma {:induction false} RegroupWithin(s: seq<IndexAttr>, keys: seq<string>)
    requires Distinct(keys)
    ensures multiset(Regroup(s, keys)) == multiset(Within(s, KeySet(keys)))
  {
    if keys == [] {
      WithinNone(s);
    } else {
      RegroupWithin(s, keys[1..]);
      WithinSplit(s, keys[0], KeySet(keys[1..]));
    }
  }

  lemma {:induction false} WithinNone(s: seq<IndexAttr>)
    ensures Within(s, {}) == []
  {
    if s != [] {
      WithinNone(s[1..]);
    }
  }

  /** Laid end to end, the sorted groups hold each attribute exactly once. */
  lemma RegroupPermutation(s: seq<IndexAttr>)
    ensures multiset(Regroup(s, IndexNames(s))) == multiset(s)
  {
    IndexNamesExact(s);
    RegroupWithin(s, IndexNames(s));
    WithinAll(s, KeySet(IndexNames(s)));
  }

  lemma {:induction false} FieldNamesConcat(a: seq<IndexAttr>, b: seq<IndexAttr>)
    ensures FieldNames(a + b) == FieldNames(a) + FieldNames(b)
  {
  }

  lemma {:induction false} AllFieldNamesRegroup(s: seq<IndexAttr>, keys: seq<string>)
    ensures AllFieldNames(BuildIndexes(s, keys)) == FieldNames(Regroup(s, keys))
  {
    if keys != [] {
      AllFieldNamesRegroup(s, keys[1..]);
      assert BuildIndexes(s, keys)[1..] == BuildIndexes(s, keys[1..]);
      FieldNamesConcat(SortByOrder(Group(s, keys[0])), Regroup(s, keys[1..]));
    }
  }

  lemma {:induction false} GroupNonEmpty(s: seq<IndexAttr>, k: string)
    requires Occurs(s, k)
    ensures Group(s, k) != []
  {
    if s[0].indexName != k {
      var i :| 0 <= i < |s| && s[i].indexName == k;
      assert s[1..][i - 1] == s[i];
      GroupNonEmpty(s[1..], k);
    }
  }

  /** `g` is `t` sorted stably by declared order. */
  ghost predicate StableSortOf(g: seq<IndexAttr>, t: seq<IndexAttr>) {
    && multiset(g) == multiset(t)
    && SortedByOrder(g)
    && forall k :: WithOrder(g, k) == WithOrder(t, k)
  }

  /** An entity has one index per distinct index name among its collected
      attributes, in order of first appearance. */
  lemma GroupIndexesNames(props: seq<Property>)
    ensures var s := Flatten(props);
      var ix := GroupIndexes(props);
      && |ix| == |IndexNames(s)|
      && (forall i, j :: 0 <= i < j < |ix| ==> ix[i].name != ix[j].name)
      && (forall a :: a in s ==> exists i :: 0 <= i < |ix| && ix[i].name == a.indexName)
      && (forall i :: 0 <= i < |ix| ==> Occurs(s, ix[i].name))
      && (forall i, j :: 0 <= i < j < |ix| ==> FirstPos(s, ix[i].name) < FirstPos(s, ix[j].name) < |s|)
  {
    IndexNamesOfIndexes(Flatten(props));
  }

  lemma IndexNamesOfIndexes(s: seq<IndexAttr>)
    ensures var ix := BuildIndexes(s, IndexNames(s));
      && |ix| == |IndexNames(s)|
      && (forall i, j :: 0 <= i < j < |ix| ==> ix[i].name != ix[j].name)
      && (forall a :: a in s ==> exists i :: 0 <= i < |ix| && ix[i].name == a.indexName)
      && (forall i :: 0 <= i < |ix| ==> Occurs(s, ix[i].name))
      && (forall i, j :: 0 <= i < j < |ix| ==> FirstPos(s, ix[i].name) < FirstPos(s, ix[j].name) < |s|)
  {
    var keys := IndexNames(s);
    var ix := BuildIndexes(s, keys);
    IndexesNamedByKeys(s, keys);
    IndexNamesExact(s);
    forall i | 0 <= i < |ix| ensures Occurs(s, ix[i].name) {
      assert keys[i] in keys;
    }
    forall i, j | 0 <= i < j < |ix|
      ensures FirstPos(s, ix[i].name) < FirstPos(s, ix[j].name) < |s|
    {
      IndexNamesInEncounterOrder(s);
    }
    forall a | a in s ensures exists i :: 0 <= i < |ix| && ix[i].name == a.indexName {
      var m :| 0 <= m < |s| && s[m] == a;
      assert a.indexName in keys;
      var i :| 0 <= i < |keys| && keys[i] == a.indexName;
      assert ix[i].name == a.indexName;
    }
  }

  lemma IndexesNamedByKeys(s: seq<IndexAttr>, keys: seq<string>)
    ensures var ix := BuildIndexes(s, keys);
      |ix| == |keys| && forall i :: 0 <= i < |ix| ==> ix[i].name == keys[i]
  {
  }

  /** Each index has at least one column, and its columns are the owning
      properties of its group of attributes, sorted stably by declared
      order. */
  lemma GroupIndexesColumns(props: seq<Property>, i: nat)
    requires i < |GroupIndexes(props)|
    ensures var s := Flatten(props);
      var ix := GroupIndexes(props)[i];
      && ix.fieldNames != []
      && exists g :: StableSortOf(g, Group(s, ix.name)) && ix.fieldNames == FieldNames(g)
  {
    var s := Flatten(props);
    var keys := IndexNames(s);
    IndexNamesExact(s);
    GroupNonEmpty(s, keys[i]);
    SortByOrderStable(Group(s, keys[i]));
    var g := SortByOrder(Group(s, keys[i]));
    assert StableSortOf(g, Group(s, keys[i]));
  }

  /** Across all indexes of an entity, the columns are the owning
      properties of a rearrangement of the collected attributes: each
      attribute contributes exactly one column. */
  lemma GroupIndexesConserve(props: seq<Property>)
    ensures exists g ::
      multiset(g) == multiset(Flatten(props)) && AllFieldNames(GroupIndexes(props)) == FieldNames(g)
    ensures |AllFieldNames(GroupIndexes(props))| == |Flatten(props)|
  {
    var s := Flatten(props);
    AllFieldNamesRegroup(s, IndexNames(s));
    RegroupPermutation(s);
    var g := Regroup(s, IndexNames(s));
    assert |g| == |multiset(g)| == |multiset(s)| == |s|;
  }
}

=== FILE: model.dfy ===
/**
 * The entities the converter builds while it reads an EF6 entity class:
 * index annotations, annotated properties, indexes and entities, and the
 * outcomes of scanning one source file.
 */
module Model {
  import opened Wrappers

  /** Largest value of a C# `int`; `int.Parse` fails above it. */
  const MaxInt32: nat := 2147483647

  /** One `[Index("name")]` or `[Index("name", Order = n)]` line, before it is
      attached to a property. An absent `Order` is `None`, never zero. */
  datatype Annotation = Annotation(indexName: string, order: Option<nat>)

  /** An index annotation linked to the property it precedes; `property` is
      the owning property's name, the only thing grouping reads from it. */
  datatype IndexAttr = IndexAttr(indexName: string, order: Option<nat>, property: string)

  /** An auto-property together with the index annotations written above it. */
  datatype Property = Property(name: string, attrs: seq<IndexAttr>)

  /** One target index: its name and the ordered names of its columns. */
  datatype Index = Index(name: string, fieldNames: seq<string>)

  /** One entity class and the indexes found on it. */
  datatype Entity = Entity(name: string, indexes: seq<Index>)

  /** Conditions that end the whole run. */
  datatype Failure =
    | IndexWithoutProperty   // an index annotation with no auto-property after it
    | OrderOverflow          // an `Order = n` with n beyond MaxInt32
    | NoFilesFound           // the input directory holds no source files
    | NoEntitiesFound        // no file produced an entity

  datatype Result<+T> = Ok(value: T) | Err(error: Failure)

  /** Why one file contributes no entity; the run continues with the next file. */
  datatype Skip = NoClassName | NoIndexedProperties | NoIndexes

  datatype Extraction = Extracted(entity: Entity) | Skipped(reason: Skip)

  /** The annotation `a`, attached to the property called `name`. */
  function Attach(a: Annotation, name: string): IndexAttr {
    IndexAttr(a.indexName, a.order, name)
  }

  /** Every annotation of `anns`, in order, attached to the property `name`. */
  function AttachAll(anns: seq<Annotation>, name: string): seq<IndexAttr> {
    seq(|anns|, i requires 0 <= i < |anns| => Attach(anns[i], name))
  }

  /** Every attribute of `p` refers back to `p` itself. */
  predicate Linked(p: Property) {
    forall i :: 0 <= i < |p.attrs| ==> p.attrs[i].property == p.name
  }

  /** Every declared order of `p` fits a C# `int`. */
  predicate OrdersInRange(p: Property) {
    forall i :: 0 <= i < |p.attrs| ==> p.attrs[i].order.GetOr(0) <= MaxInt32
  }

  /** The shape every property the accumulator returns has. */
  predicate WellFormed(p: Property) {
    p.attrs != [] && Linked(p) && OrdersInRange(p)
  }
}

=== FILE: pattern_lemmas.dfy ===
/**
 * Canonical spellings of the three line shapes, and proofs that the
 * recognizers read back exactly what was written: the partners of the
 * pattern functions.
 */
module PatternLemmas {
  import opened Wrappers
  import opened Text
  import opened Model
  import opened Patterns

  /** `[Index("name")]` or `[Index("name", Order = n)]`. */
  function AttrLineText(a: Annotation): string {
    match a.order
    case None => IndexOpen + a.indexName + "\")]"
    case Some(n) => IndexOpen + a.indexName + "\", Order = " + DecimalString(n) + ")]"
  }

  lemma ClosesBracket()
    ensures Closes(")]")
  {
    assert Span(")]", IsSpace) == ([], ")]");
    assert StripPrefix(")]", ")]") == Some([]);
  }

  lemma SkipNoSpaces(s: string)
    requires s == [] || !IsSpace(s[0])
    ensures SkipSpaces(s) == s
  {
    SpanOf([], s, IsSpace);
  }

  /** `\w+` over `w + rest` takes exactly `w`. */
  lemma WordRun(w: string, rest: string)
    requires AllWordChars(w)
    requires rest == [] || !IsWordChar(rest[0])
    ensures Span(w + rest, IsWordChar) == (w, rest)
  {
    SpanOf(w, rest, IsWordChar);
  }

  /** `\s+` over one space followed by `rest` takes exactly the space. */
  lemma OneSpaceRun(rest: string)
    requires rest == [] || !IsSpace(rest[0])
    ensures Span([' '] + rest, IsSpace) == ([' '], rest)
  {
    SpanOf([' '], rest, IsSpace);
  }

  lemma SkipOneSpace(s: string)
    requires s == [] || !IsSpace(s[0])
    ensures SkipSpaces(" " + s) == s
  {
    SpanOf(" ", s, IsSpace);
  }

  lemma OrderClauseSpelling(ds: string, rest: string)
    ensures ", Order = " + ds + rest
         == [','] + ([' '] + ("Order" + ([' '] + (['='] + ([' '] + (ds + rest))))))
  {
    assert ", Order = " + ds + rest == ", Order = " + (ds + rest);
  }

  /** `, Order = <digits>` is read as the value of the digits, followed by
      whatever comes after them. */
  lemma OrderClauseOf(ds: string, rest: string)
    requires ds != [] && AllDigits(ds)
    requires rest == [] || !IsDigit(rest[0])
    ensures OrderClause(", Order = " + ds + rest) == Some((DecimalValue(ds), rest))
  {
    var e := ds + rest;
    var d := [' '] + e;
    var c := ['='] + d;
    var b := [' '] + c;
    var a := "Order" + b;
    var t1 := [' '] + a;
    var t := [','] + t1;
    SkipNoSpaces(t);
    assert t[1..] == t1;
    SkipOneSpace(a);
    assert StripPrefix(a, "Order") == Some(b);
    SkipOneSpace(c);
    assert c[1..] == d;
    SkipOneSpace(e);
    SpanOf(ds, rest, IsDigit);
    assert OrderClause(t) == Some((DecimalValue(ds), rest));
    OrderClauseSpelling(ds, rest);
  }

  /** The annotation pattern on `[Index("` + name + tail, for a name made of
      word characters and a tail that opens with the closing quote. */
  lemma IndexOpenOf(name: string, tail: string)
    requires name != [] && AllWordChars(name)
    requires tail != [] && tail[0] == '"'
    ensures StripPrefix(IndexOpen + (name + tail), IndexOpen) == Some(name + tail)
    ensures Span(name + tail, IsWordChar) == (name, tail)
  {
    WordRun(name, tail);
  }

  /** `[Index("name")]` reads back as the name with no order (not zero). */
  lemma AttrLineNoOrder(name: string)
    requires name != [] && AllWordChars(name)
    ensures MatchIndexAttr(AttrLineText(Annotation(name, None))) == Some(Annotation(name, None))
  {
    var tail := "\")]";
    assert AttrLineText(Annotation(name, None)) == IndexOpen + (name + tail);
    IndexOpenOf(name, tail);
    assert tail[1..] == ")]";
    assert SkipSpaces(")]") == ")]" by {
      SkipNoSpaces(")]");
    }
    assert OrderClause(")]").None?;
    ClosesBracket();
  }

  /** An annotation whose quoted name is followed by an `Order` clause that
      ends where the annotation closes reads as that name and that order. */
  lemma MatchWithClause(name: string, clause: string, v: nat, rest: string)
    requires name != [] && AllWordChars(name)
    requires OrderClause(clause) == Some((v, rest)) && Closes(rest)
    ensures MatchIndexAttr(IndexOpen + (name + (['"'] + clause))) == Some(Annotation(name, Some(v)))
  {
    var tail := ['"'] + clause;
    IndexOpenOf(name, tail);
    assert tail[1..] == clause;
  }

  lemma AttrLineWithOrderSpelling(name: string, ds: string)
    ensures IndexOpen + name + "\", Order = " + ds + ")]"
         == IndexOpen + (name + (['"'] + (", Order = " + ds + ")]")))
  {
  }

  /** `[Index("name", Order = n)]` reads back as the name and exactly `n`. */
  lemma AttrLineWithOrder(name: string, n: nat)
    requires name != [] && AllWordChars(name)
    ensures MatchIndexAttr(AttrLineText(Annotation(name, Some(n)))) == Some(Annotation(name, Some(n)))
  {
    var ds := DecimalString(n);
    AttrLineWithOrderSpelling(name, ds);
    OrderClauseOf(ds, ")]");
    DecimalRoundTrip(n);
    ClosesBracket();
    MatchWithClause(name, ", Order = " + ds + ")]", n, ")]");
  }

  /** The index annotation pattern reads back the name and the order it was
      written with: an annotation without `Order` reads as no order (not
      zero), and one with `Order = n` reads as exactly `n`. */
  lemma AttrLineRoundTrip(a: Annotation)
    requires a.indexName != [] && AllWordChars(a.indexName)
    ensures ClassifyMember(AttrLineText(a)) == IndexAttrLine(a)
  {
    if a.order.None? {
      AttrLineNoOrder(a.indexName);
    } else {
      AttrLineWithOrder(a.indexName, a.order.value);
    }
  }
}

/** The auto-property and class-declaration shapes. */
module ClassAndPropertyLemmas {
  import opened Wrappers
  import opened Text
  import opened Model
  import opened Patterns
  import opened PatternLemmas

  /** `public T Name { get; set; }`. */
  function PropertyLineText(typeName: string, name: string): string {
    "public " + typeName + " " + name + " { get; set; }"
  }

  /** `public class Name`. */
  function ClassLineText(name: string): string {
    "public class " + name
  }

  predicate AllTypeChars(s: string) {
    forall i :: 0 <= i < |s| ==> IsTypeChar(s[i])
  }

  predicate NoSpaces(s: string) {
    forall i :: 0 <= i < |s| ==> !IsSpace(s[i])
  }

  /** The type pattern over `w + rest` takes exactly `w`. */
  lemma TypeRun(w: string, rest: string)
    requires AllTypeChars(w)
    requires rest == [] || !IsTypeChar(rest[0])
    ensures Span(w + rest, IsTypeChar) == (w, rest)
  {
    SpanOf(w, rest, IsTypeChar);
  }

  /** ` { get; set; }` spelled one piece at a time. */
  function AccessorsText(): string {
    [' '] + (['{'] + ([' '] + ("get;" + ([' '] + ("set;" + ([' '] + ['}']))))))
  }

  lemma AccessorsCanonical()
    ensures Accessors(AccessorsText())
  {
    var f := ['}'];
    var e := [' '] + f;
    var d := "set;" + e;
    var c := [' '] + d;
    var b := "get;" + c;
    var a := [' '] + b;
    var z := ['{'] + a;
    SkipOneSpace(z);
    assert z[1..] == a;
    SkipOneSpace(b);
    assert StripPrefix(b, "get;") == Some(c);
    SkipOneSpace(d);
    assert StripPrefix(d, "set;") == Some(e);
    SkipOneSpace(f);
  }

  lemma PropertyLineSpelling(typeName: string, name: string)
    ensures PropertyLineText(typeName, name)
         == "public" + ([' '] + (typeName + ([' '] + (name + AccessorsText()))))
  {
    assert AccessorsText() == " { get; set; }";
  }

  /** ` Name` followed by accessors that do not extend the name reads back
      as `Name`. */
  lemma PropertyNameOf(name: string, tail: string)
    requires name != [] && AllWordChars(name)
    requires tail != [] && !IsWordChar(tail[0]) && Accessors(tail)
    ensures PropertyName([' '] + (name + tail)) == Some(name)
  {
    assert (name + tail)[0] == name[0];
    OneSpaceRun(name + tail);
    WordRun(name, tail);
  }

  /** ` T Name` followed by such accessors reads back as the type and the
      name. */
  lemma TypeAndNameOf(typeName: string, name: string, tail: string)
    requires typeName != [] && AllTypeChars(typeName)
    requires name != [] && AllWordChars(name)
    requires tail != [] && !IsWordChar(tail[0]) && Accessors(tail)
    ensures TypeAndName([' '] + (typeName + ([' '] + (name + tail)))) == Some((typeName, name))
  {
    var r3 := [' '] + (name + tail);
    assert (typeName + r3)[0] == typeName[0];
    OneSpaceRun(typeName + r3);
    TypeRun(typeName, r3);
    PropertyNameOf(name, tail);
  }

  /** The auto-property pattern reads back the type and the name from
      `public T Name` followed by accessors that do not extend the name. */
  lemma AutoPropertyOf(typeName: string, name: string, tail: string)
    requires typeName != [] && AllTypeChars(typeName)
    requires name != [] && AllWordChars(name)
    requires tail != [] && !IsWordChar(tail[0]) && Accessors(tail)
    ensures MatchAutoProperty("public" + ([' '] + (typeName + ([' '] + (name + tail)))))
         == Some((typeName, name))
  {
    var r1 := [' '] + (typeName + ([' '] + (name + tail)));
    assert StripPrefix("public" + r1, "public") == Some(r1);
    TypeAndNameOf(typeName, name, tail);
  }

  /** The auto-property pattern reads back the type and the name, and the
      line is not taken for an index annotation. */
  lemma PropertyLineRoundTrip(typeName: string, name: string)
    requires typeName != [] && AllTypeChars(typeName)
    requires name != [] && AllWordChars(name)
    ensures ClassifyMember(PropertyLineText(typeName, name)) == AutoPropLine(typeName, name)
  {
    var line := PropertyLineText(typeName, name);
    PropertyLineSpelling(typeName, name);
    assert line[0] == 'p';
    assert StripPrefix(line, IndexOpen).None?;
    AccessorsCanonical();
    assert AccessorsText()[0] == ' ';
    AutoPropertyOf(typeName, name, AccessorsText());
  }

  /** Characters that are not whitespace cannot start a class match, so the
      leftmost match lies beyond them. */
  lemma {:induction false} MatchClassSkips(w: string, s: string)
    requires NoSpaces(w)
    ensures MatchClass(w + s) == MatchClass(s)
  {
    if w != [] {
      assert (w + s)[0] == w[0];
      assert Span(w + s, IsSpace).0 == [];
      assert (w + s)[1..] == w[1..] + s;
      MatchClassSkips(w[1..], s);
    } else {
      assert w + s == s;
    }
  }

  /** ` class Name` matches at its first character, capturing `Name`. */
  lemma ClassHereOf(name: string)
    requires name != [] && AllWordChars(name)
    ensures MatchClassHere([' '] + ("class" + ([' '] + name))) == Some(name)
  {
    var r2 := [' '] + name;
    var r1 := "class" + r2;
    OneSpaceRun(r1);
    assert StripPrefix(r1, "class") == Some(r2);
    OneSpaceRun(name);
    WordRun(name, []);
    assert name + [] == name;
  }

  /** `public class Name` declares the class `Name`. */
  lemma ClassLineRoundTrip(name: string)
    requires name != [] && AllWordChars(name)
    ensures MatchClass(ClassLineText(name)) == Some(name)
  {
    var here := [' '] + ("class" + ([' '] + name));
    assert ClassLineText(name) == "public" + here;
    MatchClassSkips("public", here);
    ClassHereOf(name);
  }

  /** A space followed by word characters does not start a class match. */
  lemma NoClassHere(name: string)
    requires AllWordChars(name)
    ensures MatchClassHere([' '] + name) == None
  {
    assert NoSpaces(name);
    if name != [] {
      SpanOf(" ", name, IsSpace);
      var r2 := StripPrefix(name, "class");
      if r2.Some? {
        SpanOf([], r2.value, IsSpace);
      }
    } else {
      SpanOf(" ", [], IsSpace);
    }
  }

  /** A trimmed line that begins with the keyword, `class Name`, declares no
      class: the pattern needs whitespace before `class`. */
  lemma BareClassLineDoesNotMatch(name: string)
    requires AllWordChars(name)
    ensures MatchClass("class " + name) == None
  {
    var here := [' '] + name;
    assert "class " + name == "class" + here;
    MatchClassSkips("class", here);
    NoClassHere(name);
    assert here[1..] == name + [];
    assert NoSpaces(name);
    MatchClassSkips(name, []);
  }
}

=== FILE: patterns.dfy ===
/**
 * The three line patterns of the converter, written out as recognizers over
 * one trimmed line: the class declaration, the index annotation and the
 * single-line auto-property. Each follows its regular expression's matching
 * rules (greedy runs, the optional `Order` clause, the anchoring or its
 * absence), over ASCII character classes. Each step consumes a prefix of the
 * line and hands the rest to the next step.
 */
module Patterns {
  import opened Wrappers
  import opened Text
  import opened Model

  /** What the member scan makes of one line: the index annotation pattern is
      tried first, then the auto-property pattern. */
  datatype LineKind =
    | IndexAttrLine(annotation: Annotation)
    | AutoPropLine(typeName: string, name: string)
    | OtherLine

  // ---------------------------------------------------------------------
  // Class declaration: \s+class\s+(?<className>[\w\d]+), not anchored.

  /** The class pattern tried at the start of `s` only. */
  function MatchClassHere(s: string): (r: Option<string>)
    ensures r.Some? ==> IsWord(r.value)
  {
    var (lead, r1) := Span(s, IsSpace);
    if lead == [] then None
    else match StripPrefix(r1, "class")
      case None => None
      case Some(r2) =>
        var (gap, r3) := Span(r2, IsSpace);
        var name := Span(r3, IsWordChar).0;
        if gap != [] && name != [] then Some(name) else None
  }

  /** `classRegex.Match(line)`: the leftmost match of the class pattern
      anywhere in the line, and the class name it captures. */
  function MatchClass(line: string): (r: Option<string>)
    ensures r.Some? ==> IsWord(r.value)
    decreases |line|
  {
    if line == [] then None
    else if MatchClassHere(line).Some? then MatchClassHere(line)
    else MatchClass(line[1..])
  }

  // ---------------------------------------------------------------------
  // Index annotation: ^\[Index\("(?<name>\w+)"(\s*,\s*Order\s*=\s*(?<order>\d+))?\s*\)\]

  const IndexOpen: string := "[Index(\""

  /** `\s*\)\]` at the start of `s`. */
  predicate Closes(s: string) {
    StripPrefix(SkipSpaces(s), ")]").Some?
  }

  /** The optional group `\s*,\s*Order\s*=\s*(?<order>\d+)` at the start of
      `s`: the value of the digits and what follows them. */
  function OrderClause(s: string): (r: Option<(nat, string)>)
    ensures r.Some? ==> |r.value.1| < |s|
  {
    var r1 := SkipSpaces(s);
    if r1 == [] || r1[0] != ',' then None
    else match StripPrefix(SkipSpaces(r1[1..]), "Order")
      case None => None
      case Some(r2) =>
        var r3 := SkipSpaces(r2);
        if r3 == [] || r3[0] != '=' then None
        else
          var (digits, r4) := Span(SkipSpaces(r3[1..]), IsDigit);
          if digits == [] then None else Some((DecimalValue(digits), r4))
  }

  /** `indexAttrRegex.Match(line)`: the index name and the declared order,
      absent when the `Order` clause is. The optional group is tried first;
      without it the annotation must close right after the name. */
  function MatchIndexAttr(line: string): (r: Option<Annotation>)
    ensures r.Some? ==> IsWord(r.value.indexName)
  {
    match StripPrefix(line, IndexOpen)
    case None => None
    case Some(r1) =>
      var (name, r2) := Span(r1, IsWordChar);
      if name == [] || r2 == [] || r2[0] != '"' then None
      else
        var clause := OrderClause(r2[1..]);
        if clause.Some? && Closes(clause.value.1) then
          Some(Annotation(name, Some(clause.value.0)))
        else if Closes(r2[1..]) then
          Some(Annotation(name, None))
        else None
  }

  // ---------------------------------------------------------------------
  // Auto-property: ^public\s+(?<type>[\w\?\<\>\.]+)\s+(?<name>\w+)\s*\{\s*get;\s*set;\s*\}

  predicate IsTypeChar(c: char) {
    IsWordChar(c) || c == '?' || c == '<' || c == '>' || c == '.'
  }

  /** `\s*\{\s*get;\s*set;\s*\}` at the start of `s`. */
  predicate Accessors(s: string) {
    var r1 := SkipSpaces(s);
    r1 != [] && r1[0] == '{' &&
    var getter := StripPrefix(SkipSpaces(r1[1..]), "get;");
    getter.Some? &&
    var setter := StripPrefix(SkipSpaces(getter.value), "set;");
    setter.Some? &&
    var r2 := SkipSpaces(setter.value);
    r2 != [] && r2[0] == '}'
  }

  /** `\s+(?<name>\w+)` and the accessors, after the type: the name. */
  function PropertyName(s: string): (r: Option<string>)
    ensures r.Some? ==> IsWord(r.value)
  {
    var (gap, r1) := Span(s, IsSpace);
    var (name, r2) := Span(r1, IsWordChar);
    if gap != [] && name != [] && Accessors(r2) then Some(name) else None
  }

  /** `\s+(?<type>[\w\?\<\>\.]+)` and the rest, after `public`: the type
      text and the name. */
  function TypeAndName(s: string): (r: Option<(string, string)>)
    ensures r.Some? ==> r.value.0 != [] && IsWord(r.value.1)
  {
    var (gap, r1) := Span(s, IsSpace);
    var (typeName, r2) := Span(r1, IsTypeChar);
    if gap == [] || typeName == [] then None
    else match PropertyName(r2)
      case None => None
      case Some(name) => Some((typeName, name))
  }

  /** `propertyRegex.Match(line)`: the property's type text and name. */
  function MatchAutoProperty(line: string): (r: Option<(string, string)>)
    ensures r.Some? ==> r.value.0 != [] && IsWord(r.value.1)
  {
    match StripPrefix(line, "public")
    case None => None
    case Some(r1) => TypeAndName(r1)
  }

  /** How the member scan classifies a line. */
  function ClassifyMember(line: string): (r: LineKind)
    ensures r.IndexAttrLine? ==> IsWord(r.annotation.indexName)
    ensures r.AutoPropLine? ==> IsWord(r.name)
  {
    match MatchIndexAttr(line)
    case Some(a) => IndexAttrLine(a)
    case None =>
      match MatchAutoProperty(line)
      case Some((t, n)) => AutoPropLine(t, n)
      case None => OtherLine
  }
}

=== FILE: reader.dfy ===
/**
 * The forward-only line reader over one source file: each read hands out the
 * next line with its surrounding whitespace trimmed, or reports that the
 * file is exhausted. The file's lines are given up front.
 */
module Reader {
  import opened Text

  class LineReader {
    /** The file's lines, as read, before trimming. */
    const source: seq<string>
    /** How many lines have been handed out. */
    var pos: nat

    ghost predicate Valid()
      reads this
    {
      pos <= |source|
    }

    /** The lines not yet read. */
    function Remaining(): (r: seq<string>)
      reads this
      requires Valid()
      ensures |r| == |source| - pos
    {
      source[pos..]
    }

    constructor (source: seq<string>)
      ensures Valid() && this.source == source && pos == 0
    {
      this.source := source;
      pos := 0;
    }

    /** `TryReadLine`: the next line, trimmed, and whether there was one. At
        the end of the file nothing moves and no line is returned. */
    method TryReadLine() returns (ok: bool, line: string)
      requires Valid()
      modifies this
      ensures Valid()
      ensures ok <==> old(pos) < |source|
      ensures ok ==> line == Trim(old(Remaining())[0]) && Remaining() == old(Remaining())[1..]
      ensures !ok ==> pos == old(pos) && line == []
    {
      if pos < |source| {
        line := Trim(source[pos]);
        pos := pos + 1;
        ok := true;
      } else {
        line := [];
        ok := false;
      }
    }
  }
}

=== FILE: scanner.dfy ===
/**
 * The two scans over one file's lines: the search for the class name, and
 * the accumulator that folds index annotations into the next annotated
 * auto-property. Each is a loop over the shared reader, proved against a
 * function on the lines that remain; the properties of the scans are proved
 * about those functions.
 */
module Scanner {
  import opened Wrappers
  import opened Text
  import opened Model
  import opened Patterns
  import opened Reader

  /** What the member scan makes of one line as the reader hands it out. */
  function KindOf(raw: string): LineKind {
    ClassifyMember(Trim(raw))
  }

  // ---------------------------------------------------------------------
  // Class name

  /** The class name a raw line declares, as the class scan sees it. */
  function ClassOf(raw: string): Option<string> {
    MatchClass(Trim(raw))
  }

  /** The class scan on the lines `ls`: the name from the first line that
      matches the class pattern, and the lines after it; `None` once the
      lines run out without one. */
  function FirstClass(ls: seq<string>): Option<(string, seq<string>)> {
    if ls == [] then None
    else if ClassOf(ls[0]).Some? then Some((ClassOf(ls[0]).value, ls[1..]))
    else FirstClass(ls[1..])
  }

  /** The class scan stops at the first line that declares a class, naming
      that class and leaving exactly the lines after it. */
  lemma {:induction false} FirstClassFinds(ls: seq<string>)
    requires FirstClass(ls).Some?
    ensures var r := FirstClass(ls).value;
      var c := |ls| - |r.1|;
      && 0 < c && r.1 == ls[c..]
      && ClassOf(ls[c - 1]) == Some(r.0)
      && forall j :: 0 <= j < c - 1 ==> ClassOf(ls[j]).None?
  {
    if ClassOf(ls[0]).None? {
      var tail := ls[1..];
      assert FirstClass(ls) == FirstClass(tail);
      FirstClassFinds(tail);
      var r := FirstClass(tail).value;
      var c := |tail| - |r.1|;
      assert tail[c..] == ls[c + 1..];
      assert tail[c - 1] == ls[c];
      forall j | 1 <= j < c ensures ClassOf(ls[j]).None? {
        assert ls[j] == tail[j - 1];
      }
    }
  }

  /** The class scan finds nothing exactly when no line declares a class. */
  lemma {:induction false} FirstClassNone(ls: seq<string>)
    ensures FirstClass(ls).None? <==> forall j :: 0 <= j < |ls| ==> ClassOf(ls[j]).None?
  {
    if ls != [] {
      var tail := ls[1..];
      FirstClassNone(tail);
      if forall j :: 0 <= j < |ls| ==> ClassOf(ls[j]).None? {
        forall j | 0 <= j < |tail| ensures ClassOf(tail[j]).None? {
          assert tail[j] == ls[j + 1];
        }
      }
      if FirstClass(ls).None? {
        assert ClassOf(ls[0]).None? && FirstClass(tail).None?;
        forall j | 1 <= j < |ls| ensures ClassOf(ls[j]).None? {
          assert ls[j] == tail[j - 1];
        }
      }
    }
  }

  /** `getClassName`: reads until a line declares a class and returns its
      name, leaving the reader just after that line; returns `None` with the
      reader exhausted when no line does. */
  method GetClassName(reader: LineReader) returns (name: Option<string>)
    requires reader.Valid()
    modifies reader
    ensures reader.Valid()
    ensures match FirstClass(old(reader.Remaining()))
      case Some((n, rest)) => name == Some(n) && reader.Remaining() == rest
      case None => name == None && reader.Remaining() == []
  {
    ghost var start := reader.Remaining();
    while true
      invariant reader.Valid()
      invariant FirstClass(start) == FirstClass(reader.Remaining())
      decreases |reader.source| - reader.pos
    {
      ghost var before := reader.Remaining();
      var ok, line := reader.TryReadLine();
      if !ok {
        break;
      }
      var m := MatchClass(line);
      if m.Some? {
        return m;
      }
    }
    return None;
  }

  // ---------------------------------------------------------------------
  // Annotated properties

  /** Each line classified as the member scan sees it. */
  function Kinds(ls: seq<string>): (r: seq<LineKind>)
    ensures |r| == |ls|
    ensures forall i :: 0 <= i < |ls| ==> r[i] == KindOf(ls[i])
    ensures forall i :: 0 <= i < |ls| && r[i].AutoPropLine? ==> IsWord(r[i].name)
  {
    seq(|ls|, i requires 0 <= i < |ls| => KindOf(ls[i]))
  }

  lemma KindsTail(ls: seq<string>)
    requires ls != []
    ensures Kinds(ls) == [KindOf(ls[0])] + Kinds(ls[1..])
  {
  }

  /** Reading one line moves its classification off the front of the
      classified remainder. */
  lemma ReadKind(before: seq<string>, line: string, rest: seq<string>)
    requires before != [] && line == Trim(before[0]) && rest == before[1..]
    ensures Kinds(before) != []
    ensures Kinds(before)[0] == ClassifyMember(line) && Kinds(before)[1..] == Kinds(rest)
  {
    KindsTail(before);
  }

  datatype Step = Found(property: Property, rest: seq<LineKind>) | Exhausted

  /** The accumulator on the classified lines `ks`, with the annotations
      `pending` already collected: an annotation is appended to the pending
      list, an auto-property closes a non-empty list (and is skipped when
      the list is empty), anything else is ignored. */
  function Scan(ks: seq<LineKind>, pending: seq<Annotation>): (r: Result<Step>)
    ensures r.Ok? && r.value.Found? ==> |r.value.rest| < |ks|
    ensures r.Err? ==> r.error == IndexWithoutProperty || r.error == OrderOverflow
  {
    if ks == [] then
      if pending == [] then Ok(Exhausted) else Err(IndexWithoutProperty)
    else match ks[0]
      case IndexAttrLine(a) =>
        if a.order.GetOr(0) > MaxInt32 then Err(OrderOverflow)
        else Scan(ks[1..], pending + [a])
      case AutoPropLine(_, name) =>
        if pending == [] then Scan(ks[1..], pending)
        else Ok(Found(Property(name, AttachAll(pending, name)), ks[1..]))
      case OtherLine => Scan(ks[1..], pending)
  }

  /** One call of the accumulator: it starts with nothing pending. */
  function NextProperty(ks: seq<LineKind>): Result<Step> {
    Scan(ks, [])
  }

  /** The loop that points every pending attribute at the property that
      closes them. */
  method LinkAttributes(attrs: seq<Annotation>, name: string) returns (linked: seq<IndexAttr>)
    ensures |linked| == |attrs|
    ensures forall j :: 0 <= j < |attrs| ==>
      linked[j].property == name && linked[j].indexName == attrs[j].indexName
      && linked[j].order == attrs[j].order
    ensures linked == AttachAll(attrs, name)
  {
    linked := [];
    for i := 0 to |attrs|
      invariant |linked| == i
      invariant forall j :: 0 <= j < i ==> linked[j] == Attach(attrs[j], name)
    {
      linked := linked + [Attach(attrs[i], name)];
    }
  }

  /** `tryGetNextIndexProperty`: collects the annotation lines that follow
      and returns them, linked to the auto-property that closes them. At the
      end of the file it returns `None` when nothing is pending and fails
      when an annotation is left without its property. */
  method TryGetNextIndexProperty(reader: LineReader) returns (r: Result<Option<Property>>)
    requires reader.Valid()
    modifies reader
    ensures reader.Valid()
    ensures var spec := NextProperty(Kinds(old(reader.Remaining())));
      && (spec.Ok? && spec.value.Found? ==>
            r == Ok(Some(spec.value.property)) && Kinds(reader.Remaining()) == spec.value.rest)
      && (spec == Ok(Exhausted) ==> r == Ok(None) && reader.Remaining() == [])
      && (spec.Err? ==> r == Err(spec.error))
  {
    ghost var start := reader.Remaining();
    var attrs: seq<Annotation> := [];
    while true
      invariant reader.Valid()
      invariant NextProperty(Kinds(start)) == Scan(Kinds(reader.Remaining()), attrs)
      decreases |reader.source| - reader.pos
    {
      ghost var before := reader.Remaining();
      var ok, line := reader.TryReadLine();
      if !ok {
        assert Kinds(reader.Remaining()) == [];
        break;
      }
      ReadKind(before, line, reader.Remaining());
      var attr := MatchIndexAttr(line);
      if attr.Some? {
        if attr.value.order.GetOr(0) > MaxInt32 {
          assert NextProperty(Kinds(start)) == Err(OrderOverflow);
          return Err(OrderOverflow);
        }
        attrs := attrs + [attr.value];
        continue;
      }
      var prop := MatchAutoProperty(line);
      if prop.Some? {
        if |attrs| == 0 {
          continue;
        }
        var name := prop.value.1;
        assert Kinds(before)[0] == AutoPropLine(prop.value.0, name);
        var linked := LinkAttributes(attrs, name);
        assert NextProperty(Kinds(start))
            == Ok(Found(Property(name, linked), Kinds(reader.Remaining())));
        return Ok(Some(Property(name, linked)));
      }
    }
    assert Kinds(reader.Remaining()) == [];
    if |attrs| > 0 {
      assert NextProperty(Kinds(start)) == Err(IndexWithoutProperty);
      return Err(IndexWithoutProperty);
    }
    assert NextProperty(Kinds(start)) == Ok(Exhausted);
    return Ok(None);
  }
}

=== FILE: scanner_lemmas.dfy ===
/**
 * What the accumulator promises: a returned property carries every
 * annotation line read since the call began, in order, bound to the name of
 * the auto-property that closed them; auto-properties met while nothing is
 * pending are skipped; the end of the file with annotations pending is
 * fatal, and with none pending it is the normal end.
 */
module ScannerLemmas {
  import opened Wrappers
  import opened Text
  import opened Model
  import opened Patterns
  import opened Scanner

  /** The annotation a line carries, if it is an annotation line. */
  function LineAnnotations(k: LineKind): seq<Annotation> {
    match k
    case IndexAttrLine(a) => [a]
    case _ => []
  }

  /** All annotation lines of `ls`, in order. */
  function AttrLines(ks: seq<LineKind>): seq<Annotation> {
    if ks == [] then [] else LineAnnotations(ks[0]) + AttrLines(ks[1..])
  }

  predicate InRange(anns: seq<Annotation>) {
    forall i :: 0 <= i < |anns| ==> anns[i].order.GetOr(0) <= MaxInt32
  }

  /** Every auto-property line of `ls` comes while nothing is pending, so none
      of them closes a property. */
  predicate Unclosed(ks: seq<LineKind>, pending: seq<Annotation>) {
    forall j :: 0 <= j < |ks| && ks[j].AutoPropLine? ==> pending + AttrLines(ks[..j]) == []
  }

  lemma {:induction false} AttrLinesConcat(a: seq<LineKind>, b: seq<LineKind>)
    ensures AttrLines(a + b) == AttrLines(a) + AttrLines(b)
  {
    if a == [] {
      assert a + b == b;
    } else {
      assert (a + b)[0] == a[0];
      assert (a + b)[1..] == a[1..] + b;
      AttrLinesConcat(a[1..], b);
    }
  }

  lemma AttrLinesFirst(ks: seq<LineKind>, j: nat)
    requires 1 <= j <= |ks|
    ensures AttrLines(ks[..j]) == LineAnnotations(ks[0]) + AttrLines(ks[1..][..j - 1])
  {
    assert ks[..j][0] == ks[0];
    assert ks[..j][1..] == ks[1..][..j - 1];
  }

  /** Reading line 0 moves its annotation, if any, from the lines still to
      read onto the pending list. */
  lemma PendingStep(ks: seq<LineKind>, pending: seq<Annotation>, j: nat)
    requires 1 <= j <= |ks|
    ensures var k := ks[0];
      var next := if k.IndexAttrLine? then pending + [k.annotation] else pending;
      pending + AttrLines(ks[..j]) == next + AttrLines(ks[1..][..j - 1])
  {
    AttrLinesFirst(ks, j);
    var x := AttrLines(ks[1..][..j - 1]);
    var k := ks[0];
    if k.IndexAttrLine? {
      assert LineAnnotations(ks[0]) == [k.annotation];
      assert pending + ([k.annotation] + x) == (pending + [k.annotation]) + x;
    } else {
      assert LineAnnotations(ks[0]) == [];
      assert [] + x == x;
    }
  }

  /** A property returned by the accumulator is closed by the auto-property
      line just before the lines it leaves unread; its attributes are the
      pending annotations followed by every annotation line read on the way,
      in order, each linked to that property; it is never empty; and every
      auto-property line passed on the way came while nothing was pending. */
  lemma {:induction false} ScanFound(ks: seq<LineKind>, pending: seq<Annotation>)
    requires InRange(pending)
    requires Scan(ks, pending).Ok? && Scan(ks, pending).value.Found?
    ensures var p := Scan(ks, pending).value.property;
      var rest := Scan(ks, pending).value.rest;
      var c := |ks| - |rest|;
      && 0 < c && rest == ks[c..]
      && ks[c - 1].AutoPropLine? && ks[c - 1].name == p.name
      && p.attrs == AttachAll(pending + AttrLines(ks[..c - 1]), p.name)
      && WellFormed(p)
      && forall j :: 0 <= j < c - 1 && ks[j].AutoPropLine? ==>
           pending + AttrLines(ks[..j]) == []
  {
    var k := ks[0];
    var r := Scan(ks, pending).value;
    var c := |ks| - |r.rest|;
    if k.AutoPropLine? && pending != [] {
      assert c == 1;
      assert AttrLines(ks[..0]) == [];
      assert pending + [] == pending;
    } else {
      var next := if k.IndexAttrLine? then pending + [k.annotation] else pending;
      assert Scan(ks, pending) == Scan(ks[1..], next);
      ScanFound(ks[1..], next);
      assert c >= 2;
      forall j | 1 <= j <= |ks|
        ensures pending + AttrLines(ks[..j]) == next + AttrLines(ks[1..][..j - 1])
      {
        PendingStep(ks, pending, j);
      }
      forall j | 0 <= j < c - 1 && ks[j].AutoPropLine?
        ensures pending + AttrLines(ks[..j]) == []
      {
        if j > 0 {
          assert ks[1..][j - 1] == ks[j];
        }
      }
    }
  }

  /** The accumulator reports the normal end of the file exactly when nothing
      is pending and no annotation line remains. */
  lemma {:induction false} ScanExhausted(ks: seq<LineKind>, pending: seq<Annotation>)
    ensures Scan(ks, pending) == Ok(Exhausted) <==> pending == [] && AttrLines(ks) == []
  {
    if ks != [] {
      var k := ks[0];
      if k.IndexAttrLine? {
        if k.annotation.order.GetOr(0) <= MaxInt32 {
          ScanExhausted(ks[1..], pending + [k.annotation]);
        }
      } else {
        ScanExhausted(ks[1..], pending);
      }
    }
  }

  /** When every declared order fits a C# `int`, the accumulator fails for a
      missing property exactly when some annotation is pending or remains
      and no auto-property line comes after one. */
  lemma {:induction false} ScanMissingProperty(ks: seq<LineKind>, pending: seq<Annotation>)
    requires InRange(AttrLines(ks))
    ensures Scan(ks, pending) == Err(IndexWithoutProperty)
        <==> pending + AttrLines(ks) != [] && Unclosed(ks, pending)
  {
    if ks == [] {
      assert pending + AttrLines(ks) == pending;
    } else if ks[0].AutoPropLine? && pending != [] {
      assert AttrLines(ks[..0]) == [] && pending + [] == pending;
    } else {
      var k := ks[0];
      assert AttrLines(ks) == LineAnnotations(k) + AttrLines(ks[1..]);
      assert InRange(AttrLines(ks[1..])) by {
        forall i | 0 <= i < |AttrLines(ks[1..])|
          ensures AttrLines(ks[1..])[i].order.GetOr(0) <= MaxInt32
        {
          assert AttrLines(ks[1..])[i] == AttrLines(ks)[i + |LineAnnotations(k)|];
        }
      }
      var next := if k.IndexAttrLine? then pending + [k.annotation] else pending;
      if k.IndexAttrLine? {
        assert AttrLines(ks)[0] == k.annotation;
      }
      assert Scan(ks, pending) == Scan(ks[1..], next);
      ScanMissingProperty(ks[1..], next);
      forall j | 1 <= j <= |ks|
        ensures pending + AttrLines(ks[..j]) == next + AttrLines(ks[1..][..j - 1])
      {
        PendingStep(ks, pending, j);
      }
      assert pending + AttrLines(ks) == next + AttrLines(ks[1..]) by {
        PendingStep(ks, pending, |ks|);
        assert ks[..|ks|] == ks && ks[1..][..|ks| - 1] == ks[1..];
      }
      assert AttrLines(ks[..0]) == [] && pending + [] == pending;
      if Unclosed(ks[1..], next) {
        forall j | 0 <= j < |ks| && ks[j].AutoPropLine?
          ensures pending + AttrLines(ks[..j]) == []
        {
          if j > 0 {
            assert ks[1..][j - 1] == ks[j];
          }
        }
      }
      if Unclosed(ks, pending) {
        forall j | 0 <= j < |ks| - 1 && ks[1..][j].AutoPropLine?
          ensures next + AttrLines(ks[1..][..j]) == []
        {
          assert ks[1..][j] == ks[j + 1];
        }
      }
    }
  }

  /** The accumulator fails on an order only when some annotation line it
      reads declares an order beyond a C# `int`. */
  lemma {:induction false} ScanOverflow(ks: seq<LineKind>, pending: seq<Annotation>)
    requires Scan(ks, pending) == Err(OrderOverflow)
    ensures !InRange(AttrLines(ks))
  {
    var k := ks[0];
    assert AttrLines(ks) == LineAnnotations(ks[0]) + AttrLines(ks[1..]);
    if k.IndexAttrLine? && k.annotation.order.GetOr(0) > MaxInt32 {
      assert AttrLines(ks)[0] == k.annotation;
    } else {
      var next := if k.IndexAttrLine? then pending + [k.annotation] else pending;
      ScanOverflow(ks[1..], next);
      var i :| 0 <= i < |AttrLines(ks[1..])| && AttrLines(ks[1..])[i].order.GetOr(0) > MaxInt32;
      assert AttrLines(ks)[i + |LineAnnotations(ks[0])|] == AttrLines(ks[1..])[i];
    }
  }
}

=== FILE: text.dfy ===
/**
 * Character classes, runs, trimming and decimal digits: the pieces of .NET's
 * string and regular-expression behaviour the line scanner relies on.
 */
module Text {
  import opened Wrappers

  /** Whitespace, as `\s` and `String.Trim` see it (ASCII part). */
  predicate IsSpace(c: char) {
    c == ' ' || c == '\t' || c == '\n' || c == '\r' || c == '\U{0B}' || c == '\U{0C}'
  }

  /** A word character, as `\w` sees it (ASCII part). */
  predicate IsWordChar(c: char) {
    ('a' <= c <= 'z') || ('A' <= c <= 'Z') || ('0' <= c <= '9') || c == '_'
  }

  /** A decimal digit, as `\d` sees it (ASCII part). */
  predicate IsDigit(c: char) {
    '0' <= c <= '9'
  }

  predicate AllWordChars(s: string) {
    forall i :: 0 <= i < |s| ==> IsWordChar(s[i])
  }

  /** What `\w+` captures: a non-empty run of word characters. */
  predicate IsWord(s: string) {
    s != [] && AllWordChars(s)
  }

  predicate AllSpaces(s: string) {
    forall k :: 0 <= k < |s| ==> IsSpace(s[k])
  }

  predicate AllDigits(s: string) {
    forall i :: 0 <= i < |s| ==> IsDigit(s[i])
  }

  /** Splits `s` into its longest prefix of characters satisfying `p` and the
      rest: what a greedy `p*` consumes at the start of `s`. */
  function Span(s: string, p: char -> bool): (r: (string, string))
    ensures r.0 + r.1 == s
    ensures forall k :: 0 <= k < |r.0| ==> p(r.0[k])
    ensures r.1 == [] || !p(r.1[0])
  {
    if s != [] && p(s[0]) then
      var t := Span(s[1..], p);
      var head := [s[0]] + t.0;
      assert head + t.1 == [s[0]] + (t.0 + t.1);
      assert s == [s[0]] + s[1..];
      assert forall k :: 1 <= k < |head| ==> head[k] == t.0[k - 1];
      (head, t.1)
    else ([], s)
  }

  /** A greedy run over `w + rest` stops exactly where `w` ends. */
  lemma {:induction false} SpanOf(w: string, rest: string, p: char -> bool)
    requires forall k :: 0 <= k < |w| ==> p(w[k])
    requires rest == [] || !p(rest[0])
    ensures Span(w + rest, p) == (w, rest)
  {
    if w == [] {
      assert w + rest == rest;
    } else {
      assert (w + rest)[0] == w[0];
      assert (w + rest)[1..] == w[1..] + rest;
      SpanOf(w[1..], rest, p);
      assert [w[0]] + w[1..] == w;
    }
  }

  /** `\s*` at the start of `s`: what follows the leading whitespace. */
  function SkipSpaces(s: string): (r: string)
    ensures |r| <= |s|
  {
    Span(s, IsSpace).1
  }

  /** What follows `w` when `s` starts with `w`. */
  function StripPrefix(s: string, w: string): (r: Option<string>)
    ensures r.Some? <==> (|w| <= |s| && s[..|w|] == w)
    ensures r.Some? ==> s == w + r.value
  {
    if |w| <= |s| && s[..|w|] == w then Some(s[|w|..]) else None
  }

  function TrimStart(s: string): (r: string)
    ensures |r| <= |s| && r == s[|s| - |r|..]
    ensures r == [] || !IsSpace(r[0])
    ensures forall k :: 0 <= k < |s| - |r| ==> IsSpace(s[k])
  {
    if s != [] && IsSpace(s[0]) then
      var r := TrimStart(s[1..]);
      assert s[1..][|s| - 1 - |r|..] == s[|s| - |r|..];
      assert forall k :: 1 <= k < |s| - |r| ==> s[k] == s[1..][k - 1];
      r
    else
      s
  }

  function TrimEnd(s: string): (r: string)
    ensures |r| <= |s| && r == s[..|r|]
    ensures r == [] || !IsSpace(r[|r| - 1])
    ensures forall k :: |r| <= k < |s| ==> IsSpace(s[k])
  {
    if s != [] && IsSpace(s[|s| - 1]) then
      var r := TrimEnd(s[..|s| - 1]);
      assert s[..|s| - 1][..|r|] == s[..|r|];
      assert forall k :: |r| <= k < |s| - 1 ==> s[k] == s[..|s| - 1][k];
      r
    else
      s
  }

  /** `String.Trim()`: `s` without its leading and trailing whitespace; what
      is left neither starts nor ends with whitespace, and it is the stretch of
      `s` between a run of leading and a run of trailing whitespace. */
  function Trim(s: string): (r: string)
    ensures |r| <= |s|
    ensures r == [] || (!IsSpace(r[0]) && !IsSpace(r[|r| - 1]))
    ensures exists i :: (0 <= i && i + |r| <= |s| && r == s[i..i + |r|]
                         && AllSpaces(s[..i]) && AllSpaces(s[i + |r|..]))
  {
    var t := TrimStart(s);
    var r := TrimEnd(t);
    TrimWindow(s, t, r);
    assert r == [] || r[0] == t[0];
    r
  }

  /** A suffix `t` of `s` after whitespace, and a prefix `r` of `t` before
      whitespace: `r` is the window of `s` between the two runs. */
  lemma TrimWindow(s: string, t: string, r: string)
    requires |t| <= |s| && t == s[|s| - |t|..]
    requires forall k :: 0 <= k < |s| - |t| ==> IsSpace(s[k])
    requires |r| <= |t| && r == t[..|r|]
    requires forall k :: |r| <= k < |t| ==> IsSpace(t[k])
    ensures var i := |s| - |t|;
      && i + |r| <= |s| && r == s[i..i + |r|]
      && AllSpaces(s[..i]) && AllSpaces(s[i + |r|..])
  {
    var i := |s| - |t|;
    forall k | 0 <= k < |r| ensures r[k] == s[i + k] {
      assert r[k] == t[k];
    }
    forall k | 0 <= k < i ensures IsSpace(s[..i][k]) {
      assert s[..i][k] == s[k];
    }
    var tail := s[i + |r|..];
    forall k | 0 <= k < |tail| ensures IsSpace(tail[k]) {
      assert tail[k] == t[|r| + k];
    }
  }

  /** A line with no whitespace at either end is its own trim. */
  lemma {:induction false} TrimOfTrimmed(s: string)
    requires s == [] || (!IsSpace(s[0]) && !IsSpace(s[|s| - 1]))
    ensures Trim(s) == s
  {
  }

  /** Trimming twice is trimming once. */
  lemma TrimIdempotent(s: string)
    ensures Trim(Trim(s)) == Trim(s)
  {
    TrimOfTrimmed(Trim(s));
  }

  function DigitValue(c: char): (v: nat)
    requires IsDigit(c)
    ensures v < 10
  {
    c as int - '0' as int
  }

  function DigitChar(d: nat): (c: char)
    requires d < 10
    ensures IsDigit(c) && DigitValue(c) == d
  {
    ('0' as int + d) as char
  }

  /** The value `int.Parse` gives a string of decimal digits (leading zeros
      allowed), before any range check. */
  function DecimalValue(ds: string): nat
    requires AllDigits(ds)
  {
    if ds == [] then 0 else 10 * DecimalValue(ds[..|ds| - 1]) + DigitValue(ds[|ds| - 1])
  }

  /** The shortest decimal spelling of `n`. */
  function DecimalString(n: nat): (r: string)
    ensures |r| >= 1 && AllDigits(r)
  {
    if n < 10 then [DigitChar(n)] else DecimalString(n / 10) + [DigitChar(n % 10)]
  }

  /** Reading back a written number gives the number. */
  lemma {:induction false} DecimalRoundTrip(n: nat)
    ensures DecimalValue(DecimalString(n)) == n
  {
    if n >= 10 {
      var ds := DecimalString(n);
      assert ds[..|ds| - 1] == DecimalString(n / 10);
      DecimalRoundTrip(n / 10);
    }
  }
}

=== FILE: wrappers.dfy ===
/** The optional-value datatype used for C#'s `null` results and `int?` values. */
module Wrappers {

  datatype Option<+T> = None | Some(value: T) {

    /** The wrapped value, or `default` when there is none. */
    function GetOr(default: T): T {
      match this
      case Some(v) => v
      case None => default
    }
  }
}
